=== FILE: README.md ===
# Community twist judging engine, modelled in Dafny

This project models the judging engine of the Reddit app *community twist*,
a Devvit app. Users opt a post in with a title prefix (`TI ` by default).
Other users then answer with comments that carry a comment prefix (`FU `).
Once a configurable window has passed (`stickyMinutes`, 720 by default), a
scheduled sweep picks the highest-scoring eligible comment as the post's
winner. It quotes the winner in a distinguished, locked announcement comment
and marks the post finished. Triggers keep the candidate lists current:
comment creation, comment deletion, moderation actions, post creation and
post deletion. A newer comment that overtakes the winner reopens the post.

The model is functional:

- The store is an immutable record of five finite maps: the `trackedPosts` and
  `trackedComments` sorted sets, and the `finishedPosts`, `stickyPostMap` and
  `resultStickyMap` hashes.
- Every reply from Reddit is an input. The `Oracle` datatype gives the
  comment and post fetches (found, empty or failed), the current sticky of a
  post, the result of a submission, whether each write succeeds, and the order
  in which a scan returns members. Each handler becomes a pure function from
  store, oracle and event to an `Outcome`: the new store, the writes to Reddit
  that completed, and whether an error escaped. Store writes made before an
  error are kept, as they are in the app.
- JavaScript records (`Record<string, number>`, `TrackedComments`) are ordered
  entry lists (module `Records`). `Object.keys` order is therefore modelled:
  assigning to a present key keeps its place, and a new key goes last. The
  winner's tie-break depends on this order.
- `String.prototype.replace` with a global pattern is modelled twice. One
  version inserts the replacement literally (`Strings.ReplaceAll`). The other
  expands the `$$`, `$&`, `` $` `` and `$'` patterns as ECMAScript's
  GetSubstitution does (`Strings.JsReplaceAll`).

Modules, one per source file plus shared ones:

| module | models |
|---|---|
| `Base`, `Strings`, `Types`, `Records` | options and fetch replies, JS string operations, the store, content records, effects, the oracle, JS records |
| `Settings` | `src/settings.ts` |
| `TrackedPost`, `TrackedComment`, `StickyComments` | `src/data/*.ts` |
| `Templates` | the placeholder templates of `getWinnerText` and the new-post text |
| `PostsUpdater` | `src/scheduler/postsUpdaterJob.ts` |
| `CommentCreate`, `CommentDelete`, `ModAction`, `PostCreate`, `PostDelete` | `src/triggers/*.ts` |
| `Engine` | the handlers registered in `src/main.ts`, run one event at a time |

A few points where the code's behaviour is easy to misread; the model follows the code:

- Ties between candidates go to the first one in record order, because the
  comparison is a strict `>`. Creation time plays no part.
- New comments get no author filter. The original poster's comments are
  tracked like anyone's, and only the sweep applies `allowOp`.
- `isTrackableComment` never looks at `parentId` or `postId` for its answer.
- When an existing announcement fetch comes back empty, the announcement is
  re-submitted without first dropping the old mapping. Only a throwing fetch,
  edit or approval drops it.

## Model

| member | source | states |
|---|---|---|
| `Settings.GetAppSettings` | src/settings.ts:25-38 | every field of the result is the configured value when it has the field's JavaScript type, and the default otherwise |
| `Settings.EmptyGivesDefaults` | src/settings.ts:14-23 | with nothing configured the app is disabled, does not track new posts, waits 720 minutes, uses prefixes `TI ` and `FU `, and lets the original poster win |
| `Settings.WellTypedRoundTrip` | src/settings.ts:25-38 | a fully well-typed configuration is read back unchanged |
| `Settings.FallbackIdempotent` | src/settings.ts:25-38 | applying the type fallback to its own output changes nothing |
| `Settings.OtherFieldsIndependent` | src/settings.ts:29-36 | a value of any type stored under one field's key leaves every other field as it was |
| `Records.Put` | src/data/trackedPost.ts:32 | assigning to a record keeps a present key's place in key order and appends a new key last |
| `Records.PutLookup` | src/data/trackedComment.ts:56 | after an assignment the key reads the new value and every other key reads as before |
| `TrackedPost.IsTrackablePost` | src/data/trackedPost.ts:8-16 | a post is trackable exactly when the app and new-post tracking are on and the title starts with the post prefix |
| `TrackedPost.GetTrackedPosts` | src/data/trackedPost.ts:26-35 | the range lists each post once, each with its stored timestamp; it lists a post exactly when the sorted set's listing holds it and its timestamp lies in `[min, max]`, so with a listing of every member it lists exactly the tracked posts in the window |
| `TrackedPost.TrackThenRange` | src/data/trackedPost.ts:18-35 | after tracking a post with time `t` its score is `t`, re-tracking overwrites, and a range over a listing of every member lists it exactly when `t` is in the range, with timestamp `t` |
| `TrackedPost.IsTrackedPost` | src/data/trackedPost.ts:37-40 | the truthiness test of the score answers `true` exactly for a post stored with a non-zero score |
| `TrackedPost.TrackedIffNonZero` | src/data/trackedPost.ts:37-40 | a post reads as tracked exactly when it is stored with a non-zero score, so a score of 0 reads as untracked |
| `TrackedPost.UntrackRemovesOnly` | src/data/trackedPost.ts:22-24 | untracking removes that post alone |
| `TrackedPost.GetFinishedPostWinner` | src/data/trackedPost.ts:70-77 | a post without a marker, or whose marker is a non-empty value that is not a comment id, reads as absent; any other stored value, the empty string included, is returned as stored |
| `TrackedPost.FinishedRoundTrip` | src/data/trackedPost.ts:55-77 | a post whose marker was set is listed as finished, and its winner reads back under the same validation |
| `TrackedPost.DeleteFinishedRemovesOnly` | src/data/trackedPost.ts:61-77 | deleting a marker removes that post alone from the finished list and the winner reads |
| `TrackedComment.IsTrackableComment` | src/data/trackedComment.ts:12-26 | a comment is trackable exactly when the app is on and its body starts with the comment prefix; the parent and post id branches never answer `true` |
| `TrackedComment.TrackCommentsIsTrackEach` | src/data/trackedComment.ts:39-45 | one bulk write of a record has the effect of tracking each entry in turn |
| `TrackedComment.GetTrackedComments` | src/data/trackedComment.ts:47-59 | the record holds each comment id once, and only ids of scanned members that split into a link id and a comment id; every such member's comment id is present; when the scan lists every stored member of the post, the record's ids are exactly the comment ids of the post's stored members that parse |
| `TrackedComment.GetTrackedValue` | src/data/trackedComment.ts:47-59 | a comment id yielded by exactly one scanned member is mapped to that member's score |
| `TrackedComment.TrackThenRead` | src/data/trackedComment.ts:28-59 | for a link id and a comment id without `:`, a tracked comment is read back by a scan listing every stored member of the post, with the score it was tracked with, provided no other stored member of the post (such as `"p:c:x"`) also splits to that comment id |
| `TrackedComment.UntrackRemovesOnly` | src/data/trackedComment.ts:28-37 | tracking with score `s` adds the member `"postId:commentId"` with score `s`, and untracking removes exactly that member |
| `StickyComments.ResultRoundTrip` | src/data/stickyComments.ts:7-17 | a result mapping reads back as written, whatever its shape, and other comments' mappings are untouched |
| `StickyComments.StickyRoundTrip` | src/data/stickyComments.ts:19-29 | a post has one sticky mapping, the last one written, and other posts' mappings are untouched |
| `StickyComments.DelStickyRemovesOnly` | src/data/stickyComments.ts:31-33 | deleting a post's sticky mapping removes that entry alone and leaves the result mappings as they were |
| `Templates.ReplaceTag` | src/scheduler/postsUpdaterJob.ts:43 | replacing a placeholder everywhere in a template with brace-free literal text changes each occurrence of that placeholder and leaves all other text verbatim |
| `Templates.QuoteIsIndent` | src/scheduler/postsUpdaterJob.ts:42 | the quoted body is a new line starting `"> "` followed by the body with `"> "` after every newline |
| `PostsUpdater.SafeDelete` | src/utils/safeRedditAPI.ts:3-12 | the best-effort delete writes nothing when the fetch is empty or fails; after a successful fetch it deletes exactly the fetched comment when Reddit accepts the deletion, and nothing otherwise |
| `PostsUpdater.AddOrUpdateSticky` | src/scheduler/postsUpdaterJob.ts:10-39 | only the post's sticky mapping can change; a successful edit and approval of the existing announcement submits nothing and changes no store key; otherwise the returned announcement is exactly the id Reddit returns for the submission, and when there is one the mapping names it; when the fetch, edit or approval throws, the old mapping is dropped and the old comment deleted whenever Reddit accepts; an empty fetch deletes nothing and, if the submission fails, writes nothing to the store |
| `PostsUpdater.AnnounceTwiceOnlyEdits` | src/scheduler/postsUpdaterJob.ts:10-22 | announcing the same text twice creates no second comment when the first announcement can be edited and approved |
| `PostsUpdater.WinnerText` | src/scheduler/postsUpdaterJob.ts:41-45 | the text with each value inserted literally; a template without `{` holds no placeholder and is posted unchanged |
| `PostsUpdater.WinnerTextFillsTemplate` | src/scheduler/postsUpdaterJob.ts:41-45 | for a template whose literal text has no `{` and an author name and permalink without `{`, the winner text is the template with every `{{author}}`, `{{permalink}}` and `{{body}}` replaced, in that order, the body quoted, and all other text unchanged |
| `PostsUpdater.WinnerTextAsWritten` | src/scheduler/postsUpdaterJob.ts:41-45 | the text as the app computes it, with `$` patterns expanded; when no inserted value contains `$`, it equals the literal insertion |
| `PostsUpdater.DollarPatternMangles` | src/scheduler/postsUpdaterJob.ts:42-43 | a winning body `$&` under the template `{{body}}` comes out as the quoted placeholder instead of the quoted body |
| `PostsUpdater.Best` | src/scheduler/postsUpdaterJob.ts:60-82 | no pick exactly when nothing is eligible; the pick is eligible, scores at least as high as every eligible candidate, and strictly higher than every earlier one |
| `PostsUpdater.BestIsFirstMax` | src/scheduler/postsUpdaterJob.ts:74-81 | the pick is exactly the first eligible candidate of maximal score |
| `PostsUpdater.Fetched` | src/scheduler/postsUpdaterJob.ts:48-58 | a failed or empty fetch drops only that candidate; every other candidate is the fetched comment |
| `PostsUpdater.Resolve` | src/scheduler/postsUpdaterJob.ts:47-87 | the winner passes every filter, is not the post's author unless the original poster may win, has the highest live score among eligible fetched candidates, and is the first such in record order |
| `PostsUpdater.TrackedCommentsDetermine` | src/scheduler/postsUpdaterJob.ts:48 | the candidates of a post depend on the store only through the tracked comments |
| `PostsUpdater.UpdatePostResult` | src/scheduler/postsUpdaterJob.ts:47-93 | with no winner nothing is written; with a winner, the writes to Reddit and the post's sticky mapping are exactly those of announcing the winner text as the app computes it; with winner W and announcement S the result maps W to S and the post is finished with W; a failed submission leaves both maps untouched; nothing changes for other posts |
| `PostsUpdater.OnPostsUpdaterJob` | src/scheduler/postsUpdaterJob.ts:95-123 | a disabled app does nothing, and the sweep never lets an error escape |
| `PostsUpdater.ProcessPost` | src/scheduler/postsUpdaterJob.ts:113-121 | a post already finished or not fetched is skipped without writes; no error escapes; the tracked sets never change, and no other post's marker or sticky mapping changes |
| `PostsUpdater.SweepLoop` | src/scheduler/postsUpdaterJob.ts:112-122 | the loop never throws, tracks or untracks nothing, and only adds finished markers for posts it visits |
| `PostsUpdater.SweepLoopFrame` | src/scheduler/postsUpdaterJob.ts:110-122 | the loop tracks and untracks nothing and leaves a post that is skipped or absent from the list as it was |
| `PostsUpdater.SweepLoopResolves` | src/scheduler/postsUpdaterJob.ts:112-122 | a listed unfinished post with a winner and a working submission ends finished with its winner, whatever happened to the posts before it |
| `PostsUpdater.SweepLeavesUndue` | src/scheduler/postsUpdaterJob.ts:95-123 | a post outside `[0, now - stickyMinutes * 60000]`, not listed, or already finished keeps its marker and sticky mapping |
| `PostsUpdater.SweepResolvesDue` | src/scheduler/postsUpdaterJob.ts:95-123 | with a listing of every tracked post, a due unfinished post with a winner and a working submission ends finished with its winner |
| `CommentCreate.EvaluateNewComment` | src/triggers/commentCreate.ts:7-23 | an untrackable comment writes nothing; a trackable one is tracked under its parent with its score, and the parent's marker is dropped exactly when its winner is fetched and scores strictly lower; a failing winner fetch throws after tracking |
| `CommentCreate.TieKeepsMarker` | src/triggers/commentCreate.ts:12-18 | a comment that only ties the winner leaves the post finished |
| `CommentCreate.AuthorIgnored` | src/triggers/commentCreate.ts:7-23 | the outcome does not depend on the comment's author |
| `CommentCreate.CreateThenRead` | src/triggers/commentCreate.ts:25-32 | a trackable comment delivered by the trigger is read back among its post's candidates with its score, given a complete scan and no other member splitting to the same comment id |
| `CommentCreate.OnCommentCreate` | src/triggers/commentCreate.ts:25-32 | an event without a comment id does nothing; a failing or empty fetch throws without writes; a fetched comment gets the new-comment evaluation; no marker is ever added |
| `CommentDelete.OnCommentDelete` | src/triggers/commentDelete.ts:13-35 | missing ids, a missing or non-user source, or a parent that is not a post change nothing; otherwise the member is untracked and the parent's marker dropped exactly when the comment's result mapping is the comment's own id |
| `CommentDelete.DeletedWinnerStaysWinner` | src/triggers/commentDelete.ts:31-34 | after the sweep judged a post, its winner's deletion leaves the post finished with the deleted comment as winner |
| `CommentDelete.OnCommentDeleteCorrected` | src/triggers/commentDelete.ts:13-35 | the same guards and untracking; the only marker that can change is the parent's, and it can only be dropped |
| `CommentDelete.CorrectedReopensPost` | src/triggers/commentDelete.ts:31-34 | after the corrected deletion the deleted comment is never the parent's winner, and a marker naming another comment is kept |
| `ModAction.OnCommentTarget` | src/triggers/modAction.ts:20-29 | a removal untracks the comment and drops the marker exactly when the validated winner is that comment; an approval is the new-comment evaluation of the fetched comment, or throws without writes |
| `ModAction.OnPostTarget` | src/triggers/modAction.ts:30-47 | only a post action with a current sticky writes; an approval that Reddit accepts comes first, and the sticky is distinguished exactly when the approval and the distinguish are both accepted; removals remove; it throws exactly when the sticky lookup fails |
| `ModAction.OnModAction` | src/triggers/modAction.ts:15-48 | no action, or an action string the handler does not know, changes nothing; post actions never change the store; an entry with only a target post runs the post part alone, with its writes and its throw; no marker or mapping is ever added |
| `ModAction.BothTargetsProcessed` | src/triggers/modAction.ts:20-47 | an entry with both targets runs the comment part and then the post part |
| `ModAction.ApproveIsNewComment` | src/triggers/modAction.ts:26-28 | approving a comment that can be fetched is the new-comment evaluation of it |
| `PostCreate.NewPostText` | src/triggers/postCreate.ts:15 | the new-post text as the app computes it; for an author name without `$` it is the literal replacement of every `{{author}}` |
| `PostCreate.NewPostTextFills` | src/triggers/postCreate.ts:15 | every `{{author}}` of the new-post template becomes the author's name, and all other text is kept |
| `PostCreate.EvaluateNewPost` | src/triggers/postCreate.ts:7-16 | an untrackable post writes nothing; a trackable one is tracked with its creation time even when the announcement fails; only the tracked posts and the post's sticky mapping change; a new announcement is submitted with the new-post text and the id Reddit returns is recorded as the post's sticky, and a reusable existing one is edited to that text without any submission |
| `PostCreate.CreateThenRange` | src/triggers/postCreate.ts:23-37 | after the trigger tracks a post, it reads as tracked exactly when its creation time is non-zero, and a range over a complete listing lists it exactly when its creation time lies in the range |
| `PostCreate.OnPostCreate` | src/triggers/postCreate.ts:23-37 | a missing post id or an unfound post does nothing; a failing fetch throws without writes; a fetched post gets the new-post evaluation |
| `PostDelete.OnPostDelete` | src/triggers/postDelete.ts:12-39 | missing ids, a missing or non-user source, or an untracked post change nothing; otherwise the post is untracked; the sticky mapping is dropped exactly when the current sticky is fetched and its deletion succeeds, and then the deletion is the only write to Reddit; it is kept when there is no sticky |
| `PostDelete.DeleteUntracks` | src/triggers/postDelete.ts:24-28 | once the deletion acts on a post, the post reads as untracked and no range lists it |
| `PostDelete.TrackThenDelete` | src/triggers/postDelete.ts:24-28 | tracking a post with a non-zero time and then deleting it leaves the sorted set as it was, less that post |
| `PostDelete.ZeroScorePostIgnored` | src/triggers/postDelete.ts:24-26 | the deletion of a post stored with score 0 is ignored and the post stays tracked |
| `Engine.Step` | src/main.ts:19-28 | each registered handler on its event; no trigger adds or changes a finished marker or a result mapping, and a comment deletion writes nothing to Reddit and never throws |
| `Engine.UpdateKeepsJudged` | src/scheduler/postsUpdaterJob.ts:90-92 | resolving a post keeps every finished marker naming a comment with a recorded announcement |
| `Engine.SweepKeepsJudged` | src/scheduler/postsUpdaterJob.ts:112-122 | the sweep loop keeps every finished marker naming a comment with a recorded announcement |
| `Engine.StepKeepsJudged` | src/main.ts:19-28 | every registered handler keeps every finished marker naming a comment with a recorded announcement |
| `Engine.RunKeepsJudged` | src/main.ts:19-28 | any sequence of events keeps that invariant |
| `Engine.TriggersOnlyReopen` | src/main.ts:22-28 | without a sweep, events never add or change a finished marker or a result mapping |

## Left out

- `src/forms/manageForm.ts` and `src/buttons/manageButton.ts`: the moderator form and its toasts are UI. Its "set" action records the announcement id, not the winner's id, as the finished winner (src/forms/manageForm.ts:180). That breaks the invariant `Engine.Judged` the handlers keep.
- `src/main.ts`, `src/triggers/appChanged.ts` and the settings schema (`Devvit.addSettings`): platform registration. The model takes the settings as a map of raw values and runs the registered handlers through `Engine.Step`.
- The cutoff time get and set (src/data/trackedPost.ts:42-53): no handler uses them, and they read the wall clock.
- `safeLockComment`: its definition is not part of this model. It is treated like `safeDistinguishComment`, as a best-effort write whose failure is ignored.
- The stickied-comment lookup from `devvit-helpers` is an oracle input: the current sticky's id, none, or a failure.
- Redis, `zScanAll` and `zRange`: the store is a record of maps. The members a scan for `"postId:*"` returns, and their order, are an oracle input; the model keeps only those that are stored and start with `"postId:"`. The order in which the range query lists the sorted set is an input too. Lemmas that need a complete listing say so with `TrackedComment.ScanListsAll` and `TrackedPost.RankingComplete`.
- `Promise.all` over the candidate fetches is a sequential map. Each fetch is independent, so order does not change the result.
- `isLinkId` and `isCommentId` come from a library that is not part of this model. They are modelled as the prefixes `t3_` and `t1_`.
- Reddit content does not change during one handler run. Every fetch of the same id returns the same reply.
- JavaScript numbers are unbounded integers, and `Date.now()` is the parameter `now`. `stickyMinutes * 60 * 1000` is exact.
- `Object.keys` lists integer-like keys first. Record keys here are post and comment ids with a `t3_` or `t1_` prefix, which are never integer-like, so insertion order is modelled.
- Console logging and the warnings on malformed store values are not modelled. The values are still returned as the code returns them.
- `PostsUpdater.OnPostsUpdaterJob`: its own contract states only the disabled case and that nothing escapes. The window, the finished skip and per-post isolation are stated by `PostsUpdater.SweepLeavesUndue`, `PostsUpdater.SweepResolvesDue` and `PostsUpdater.SweepLoopResolves`, which assume that fetching a post by id returns a post with that id.
- `TrackedPost.TrackThenRange`: assumes the range query's listing holds every member of the sorted set, which a Redis range over the whole set guarantees; the model takes the listing as an input.
- `TrackedComment.TrackThenRead`: assumes the scan lists every stored member of the post, which a complete `zScan` cursor walk guarantees; the model takes the scan's reply as an input. It also assumes no other stored member of the post splits to the same comment id: `split(":")` keeps the first two pieces, so a member `"p:c:x"` would, but Reddit comment ids contain no `:`, so no member `"p:c:..."` other than `"p:c"` is ever written.
- `PostsUpdater.SweepResolvesDue`: assumes a complete listing of the tracked posts, as for `TrackedPost.TrackThenRange`, and that every submission to the post succeeds.
- `PostsUpdater.WinnerTextFillsTemplate`: stated for templates whose literal text has no `{` and for an author name and permalink without `{`. Reddit user names and permalinks contain no `{`. A literal `{` in the template can join the text next to it, or an inserted value, into a placeholder, which the app would then replace and the reference fill would not.
- `CommentCreate.CreateThenRead`: assumes a complete scan and no other member splitting to the same comment id, for the reasons given for `TrackedComment.TrackThenRead`.
- `PostCreate.CreateThenRange`: assumes a complete listing, as for `TrackedPost.TrackThenRange`.
- `PostsUpdater.AnnounceTwiceOnlyEdits`: assumes that fetching a comment by id returns a comment with that id, and that a submitted comment's id is non-empty.
- `PostCreate.NewPostTextFills`: states the literal replacement only for author names without `$`. Reddit user names cannot contain `$`, so the app's `$`-pattern expansion does not arise for them.

## Findings

| source | as written | input that shows it | evidently intended | confidence | as-written member | corrected member |
|---|---|---|---|---|---|---|
| src/triggers/commentDelete.ts:31-34 | the finished marker is dropped only when the announcement recorded for the deleted comment has the deleted comment's own id. The announcement is a different comment, so this never holds for a store the sweep wrote | post `t3_a` finished with winner `t1_w`, `resultStickyMap[t1_w] = t1_s`, and the author deletes `t1_w`: the post stays finished with the deleted comment as winner | drop the parent's marker when its recorded winner is the deleted comment, as the removal path of the moderation handler does (src/triggers/modAction.ts:23-25) | medium, not executed | `CommentDelete.DeletedWinnerStaysWinner` | `CommentDelete.CorrectedReopensPost` |
| src/scheduler/postsUpdaterJob.ts:42-43 | `replace` with a string replacement expands `$&`, `` $` ``, `$'` and `$$` in the author name, permalink and quoted body | template `{{body}}`, winning body `$&`: the announcement reads `"\n> {{body}}"` instead of `"\n> $&"` | insert the values literally (a replacement function) | high, not executed | `PostsUpdater.DollarPatternMangles` | `PostsUpdater.WinnerTextFillsTemplate` |

The engine and the sweep run the code as written: `Engine.Step` handles
comment deletions with `CommentDelete.OnCommentDelete`, and
`PostsUpdater.UpdatePostResult` announces `PostsUpdater.WinnerTextAsWritten`.
The corrected definitions, `CommentDelete.OnCommentDeleteCorrected` and
`PostsUpdater.WinnerText`, stand beside them with the intended properties
proved. The contract of `CommentDelete.OnCommentDeleteCorrected` states, as
that of the handler as written does, that it can only drop the parent's
finished marker and never touches a result mapping.

=== FILE: base.dfy ===
/** Small value types shared by every module of the model. */
module Base {

  /** An optional value: JavaScript's `T | undefined`. */
  datatype Option<+T> = None | Some(value: T)

  /** The reply of one call into the content provider: the record, an empty
      (`undefined`/`null`) reply, or a thrown error. */
  datatype Fetch<+T> = Found(value: T) | Missing | Failed

  /** JavaScript truthiness of an optional string: defined and non-empty. */
  predicate Truthy(o: Option<string>) {
    o.Some? && o.value != ""
  }

  /** Every entry of `a` is an entry of `b`: `b` may have more keys, and never
      a different value under a key of `a`. */
  predicate SubMap<K, V(==)>(a: map<K, V>, b: map<K, V>) {
    forall k :: k in a ==> k in b && a[k] == b[k]
  }
}

=== FILE: comment_create.dfy ===
/** New comments (src/triggers/commentCreate.ts): tracking a candidate and
    reopening a judged post when a newer comment overtakes its winner. */
module CommentCreate {
  import opened Base
  import opened Types
  import opened Settings
  import opened TrackedPost
  import opened TrackedComment
  import opened Records
  import opened PostsUpdater

  /** The recorded winner of the comment's parent can be fetched and scores
      strictly lower than the comment. */
  predicate Overtakes(st: Store, o: Oracle, c: Comment) {
    var w := GetFinishedPostWinner(st, c.parentId);
    Truthy(w) && o.comment(w.value).Found? && o.comment(w.value).value.score < c.score
  }

  /** `evaluateNewComment`: a trackable comment is tracked under its parent
      with its current score; when the parent has a recorded winner, the
      winner is fetched and the finished marker dropped if the comment scores
      strictly higher. A failing winner fetch throws after the tracking write. */
  function EvaluateNewComment(st: Store, o: Oracle, c: Comment, s: AppSettings): (r: Outcome)
    ensures !IsTrackableComment(c, s) ==> r == Outcome(st, [], false)
    ensures r.effects == []
    ensures IsTrackableComment(c, s) ==>
              && r.store.trackedComments == st.trackedComments[MemberKey(c.parentId, c.id) := c.score]
              && r.store.(trackedComments := st.trackedComments, finishedPosts := st.finishedPosts) == st
    ensures r.store.finishedPosts - {c.parentId} == st.finishedPosts - {c.parentId}
    ensures IsTrackableComment(c, s) ==>
              (c.parentId in r.store.finishedPosts <==> c.parentId in st.finishedPosts && !Overtakes(st, o, c))
    ensures SubMap(r.store.finishedPosts, st.finishedPosts)
    ensures r.threw <==> && IsTrackableComment(c, s)
                         && Truthy(GetFinishedPostWinner(st, c.parentId))
                         && !o.comment(GetFinishedPostWinner(st, c.parentId).value).Found?
  {
    if !IsTrackableComment(c, s) then Outcome(st, [], false)
    else
      var st1 := TrackComment(st, c.parentId, c.id, c.score);
      var winner := GetFinishedPostWinner(st1, c.parentId);
      if !Truthy(winner) then Outcome(st1, [], false)
      else match o.comment(winner.value)
        case Found(w) =>
          if w.score < c.score then Outcome(DeleteFinishedPost(st1, c.parentId), [], false)
          else Outcome(st1, [], false)
        case _ => Outcome(st1, [], true)
  }

  /** A comment that only ties the recorded winner leaves the post judged. */
  lemma TieKeepsMarker(st: Store, o: Oracle, c: Comment, s: AppSettings)
    requires var w := GetFinishedPostWinner(st, c.parentId);
             Truthy(w) && o.comment(w.value).Found? && o.comment(w.value).value.score == c.score
    ensures EvaluateNewComment(st, o, c, s).store.finishedPosts == st.finishedPosts
  {
  }

  /** There is no author filter on new comments: the outcome does not depend
      on who wrote the comment, so the post's author is tracked like anyone. */
  lemma AuthorIgnored(st: Store, o: Oracle, c: Comment, s: AppSettings, authorId: Option<string>, authorName: string)
    ensures EvaluateNewComment(st, o, c.(authorId := authorId, authorName := authorName), s)
            == EvaluateNewComment(st, o, c, s)
  {
  }

  /** `onCommentCreate`: an event without a comment id does nothing; otherwise
      the comment is fetched (a failure throws) and evaluated. */
  function OnCommentCreate(st: Store, o: Oracle, raw: RawSettings, commentId: Option<string>): (r: Outcome)
    ensures !Truthy(commentId) ==> r == Outcome(st, [], false)
    ensures Truthy(commentId) && !o.comment(commentId.value).Found? ==> r == Outcome(st, [], true)
    ensures Truthy(commentId) && o.comment(commentId.value).Found? ==>
              r == EvaluateNewComment(st, o, o.comment(commentId.value).value, GetAppSettings(raw))
    ensures r.effects == []
    ensures r.store.trackedPosts == st.trackedPosts && r.store.stickyPostMap == st.stickyPostMap
    ensures r.store.resultStickyMap == st.resultStickyMap
    ensures SubMap(r.store.finishedPosts, st.finishedPosts)
  {
    if !Truthy(commentId) then Outcome(st, [], false)
    else match o.comment(commentId.value)
      case Found(c) => EvaluateNewComment(st, o, c, GetAppSettings(raw))
      case _ => Outcome(st, [], true)
  }

  /** Round trip through the trigger: a trackable comment delivered by
      `onCommentCreate` is read back among its post's candidates with its
      score, given a scan listing every stored member of the post and no other
      member splitting to the same comment id. */
  lemma CreateThenRead(st: Store, o: Oracle, raw: RawSettings, id: string, scan: seq<string>)
    requires id != "" && o.comment(id).Found?
    requires var c := o.comment(id).value;
             && IsTrackableComment(c, GetAppSettings(raw))
             && IsLinkId(c.parentId) && IsCommentId(c.id) && ':' !in c.parentId && ':' !in c.id
             && ScanListsAll(TrackComment(st, c.parentId, c.id, c.score), c.parentId, scan)
             && forall m :: m in scan && m != MemberKey(c.parentId, c.id) ==> !Yields(st, c.parentId, m, c.id)
    ensures var c := o.comment(id).value;
            Lookup(GetTrackedComments(OnCommentCreate(st, o, raw, Some(id)).store, c.parentId, scan), c.id) == Some(c.score)
  {
    var c := o.comment(id).value;
    TrackThenRead(st, c.parentId, c.id, c.score, scan);
    TrackedCommentsDetermine(OnCommentCreate(st, o, raw, Some(id)).store, TrackComment(st, c.parentId, c.id, c.score),
                             c.parentId, scan);
  }
}

=== FILE: comment_delete.dfy ===
/** Comment deletions by their authors (src/triggers/commentDelete.ts). */
module CommentDelete {
  import opened Base
  import opened Types
  import opened TrackedPost
  import opened TrackedComment
  import opened StickyComments

  /** The fields of a `CommentDelete` notification the handler reads. */
  datatype CommentDeleteEvent = CommentDeleteEvent(
    commentId: Option<string>,
    parentId: Option<string>,
    source: Option<EventSource>
  )

  /** The guard chain: both ids present, a source present and equal to
      `USER`, and the parent is a post (a top-level comment). */
  predicate Acts(e: CommentDeleteEvent) {
    && Truthy(e.commentId) && Truthy(e.parentId)
    && !SourceMissing(e.source) && e.source.value == User
    && IsLinkId(e.parentId.value)
  }

  /** `onCommentDelete` as written: untrack `"parentId:commentId"`, then drop
      the parent's finished marker when the announcement recorded for the
      deleted comment has the deleted comment's own id. */
  function OnCommentDelete(st: Store, e: CommentDeleteEvent): (r: Store)
    ensures !Acts(e) ==> r == st
    ensures Acts(e) ==> r.trackedComments == st.trackedComments - {MemberKey(e.parentId.value, e.commentId.value)}
    ensures r.(trackedComments := st.trackedComments, finishedPosts := st.finishedPosts) == st
    ensures Acts(e) && GetResultComment(st, e.commentId.value) == e.commentId ==>
              r.finishedPosts == st.finishedPosts - {e.parentId.value}
    ensures !(Acts(e) && GetResultComment(st, e.commentId.value) == e.commentId) ==>
              r.finishedPosts == st.finishedPosts
  {
    if !Truthy(e.commentId) || !Truthy(e.parentId) then st
    else if SourceMissing(e.source) then st
    else if e.source.value != User then st
    else if !IsLinkId(e.parentId.value) then st
    else
      var cid, pid := e.commentId.value, e.parentId.value;
      var st1 := UntrackComment(st, pid, cid);
      var result := GetResultComment(st1, cid);
      if Truthy(result) && result.value == cid then DeleteFinishedPost(st1, pid) else st1
  }

  /** A store as the sweep leaves it after judging post `p`: `w` won, and its
      announcement `a` is a different comment. Deleting `w` by its author then
      keeps the post judged with `w` as winner, so the post is never re-judged. */
  lemma DeletedWinnerStaysWinner(st: Store, p: string, w: string, a: string)
    requires IsLinkId(p) && IsCommentId(w) && a != w
    requires p in st.finishedPosts && st.finishedPosts[p] == w
    requires w in st.resultStickyMap && st.resultStickyMap[w] == a
    ensures var r := OnCommentDelete(st, CommentDeleteEvent(Some(w), Some(p), Some(User)));
            GetFinishedPostWinner(r, p) == Some(w)
  {
    assert w != "" && p != "";
  }

  /** The deletion as evidently intended: drop the parent's finished marker
      when it names the deleted comment as winner, as the removal path of the
      moderation handler does. */
  function OnCommentDeleteCorrected(st: Store, e: CommentDeleteEvent): (r: Store)
    ensures !Acts(e) ==> r == st
    ensures Acts(e) ==> r.trackedComments == st.trackedComments - {MemberKey(e.parentId.value, e.commentId.value)}
    ensures r.(trackedComments := st.trackedComments, finishedPosts := st.finishedPosts) == st
    ensures r.finishedPosts == st.finishedPosts || (Acts(e) && r.finishedPosts == st.finishedPosts - {e.parentId.value})
  {
    if !Acts(e) then st
    else
      var cid, pid := e.commentId.value, e.parentId.value;
      var st1 := UntrackComment(st, pid, cid);
      if GetFinishedPostWinner(st1, pid) == Some(cid) then DeleteFinishedPost(st1, pid) else st1
  }

  /** After the corrected deletion, the deleted comment is never the recorded
      winner of its parent, and a marker naming another comment is kept. */
  lemma CorrectedReopensPost(st: Store, e: CommentDeleteEvent)
    requires Acts(e)
    ensures var r := OnCommentDeleteCorrected(st, e);
            && GetFinishedPostWinner(r, e.parentId.value) != e.commentId
            && (GetFinishedPostWinner(st, e.parentId.value) != e.commentId ==>
                  r.finishedPosts == st.finishedPosts)
  {
  }
}

=== FILE: engine.dfy ===
/** The engine as a whole: the handlers the app registers, one event at a
    time over a shared store, and the invariants every handler keeps. */
module Engine {
  import opened Base
  import opened Types
  import opened Settings
  import opened PostsUpdater
  import opened CommentCreate
  import opened CommentDelete
  import opened ModAction
  import opened PostCreate
  import opened PostDelete

  /** One delivered trigger or scheduler run. */
  datatype Event =
    | CommentCreated(commentId: Option<string>)
    | CommentDeleted(cd: CommentDeleteEvent)
    | ModActed(ma: ModActionEvent)
    | PostCreated(postId: Option<string>)
    | PostDeleted(pd: PostDeleteEvent)
    | SweepRan(now: int, ranking: seq<string>)

  /** The handler registered for an event, run against the store. Only the
      sweep adds finished markers or result mappings; every trigger can at
      most drop a finished marker. */
  function Step(st: Store, o: Oracle, raw: RawSettings, ev: Event): (r: Outcome)
    ensures !ev.SweepRan? ==> SubMap(r.store.finishedPosts, st.finishedPosts)
    ensures !ev.SweepRan? ==> r.store.resultStickyMap == st.resultStickyMap
    ensures ev.CommentDeleted? ==> r.effects == [] && !r.threw
  {
    match ev
    case CommentCreated(id) => OnCommentCreate(st, o, raw, id)
    case CommentDeleted(e) => Outcome(OnCommentDelete(st, e), [], false)
    case ModActed(e) => OnModAction(st, o, raw, e)
    case PostCreated(id) => OnPostCreate(st, o, raw, id)
    case PostDeleted(e) => OnPostDelete(st, o, e)
    case SweepRan(now, ranking) => OnPostsUpdaterJob(st, o, raw, now, ranking)
  }

  /** A sequence of events, each seen with its own replies from Reddit; a
      handler that throws keeps the store writes it made. */
  function Run(st: Store, raw: RawSettings, evs: seq<(Event, Oracle)>): Store
    decreases |evs|
  {
    if |evs| == 0 then st
    else
      var n := |evs| - 1;
      Step(Run(st, raw, evs[..n]), evs[n].1, raw, evs[n].0).store
  }

  /** Every finished marker names a comment with a recorded announcement: the
      sweep writes the two together, and no trigger adds either. */
  predicate Judged(st: Store) {
    forall p :: p in st.finishedPosts ==> st.finishedPosts[p] in st.resultStickyMap
  }

  /** Resolving one post keeps `Judged`. */
  lemma UpdateKeepsJudged(st: Store, o: Oracle, post: Post, s: AppSettings)
    requires Judged(st)
    ensures Judged(UpdatePostResult(st, o, post, s).store)
  {
    var r := UpdatePostResult(st, o, post, s).store;
    if Resolve(st, o, post, s).Some? && !UpdatePostResult(st, o, post, s).threw {
      forall p | p in r.finishedPosts ensures r.finishedPosts[p] in r.resultStickyMap {
        if p != post.id {
          assert p in st.finishedPosts;
        }
      }
    }
  }

  /** The sweep loop keeps `Judged`. */
  lemma {:induction false} SweepKeepsJudged(st: Store, o: Oracle, s: AppSettings, finished: set<string>, ids: seq<string>)
    requires Judged(st)
    ensures Judged(SweepLoop(st, o, s, finished, ids).store)
    decreases |ids|
  {
    if |ids| > 0 {
      var n := |ids| - 1;
      SweepKeepsJudged(st, o, s, finished, ids[..n]);
      var prev := SweepLoop(st, o, s, finished, ids[..n]).store;
      if ids[n] !in finished && o.post(ids[n]).Found? {
        UpdateKeepsJudged(prev, o, o.post(ids[n]).value, s);
      }
    }
  }

  /** Every handler keeps `Judged`. */
  lemma StepKeepsJudged(st: Store, o: Oracle, raw: RawSettings, ev: Event)
    requires Judged(st)
    ensures Judged(Step(st, o, raw, ev).store)
  {
    if ev.SweepRan? {
      var s := GetAppSettings(raw);
      if s.enabled {
        var posts := TrackedPost.GetTrackedPosts(st, 0, Cutoff(s, ev.now), ev.ranking);
        SweepKeepsJudged(st, o, s, TrackedPost.GetFinishedPosts(st), Records.Keys(posts));
      }
    }
  }

  /** Any run of events keeps `Judged`. */
  lemma {:induction false} RunKeepsJudged(st: Store, raw: RawSettings, evs: seq<(Event, Oracle)>)
    requires Judged(st)
    ensures Judged(Run(st, raw, evs))
    decreases |evs|
  {
    if |evs| > 0 {
      var n := |evs| - 1;
      RunKeepsJudged(st, raw, evs[..n]);
      StepKeepsJudged(Run(st, raw, evs[..n]), evs[n].1, raw, evs[n].0);
    }
  }

  /** Without a sweep, a run never adds or changes a finished marker or a
      result mapping: triggers can only reopen judged posts. */
  lemma {:induction false} TriggersOnlyReopen(st: Store, raw: RawSettings, evs: seq<(Event, Oracle)>)
    requires forall i :: 0 <= i < |evs| ==> !evs[i].0.SweepRan?
    ensures SubMap(Run(st, raw, evs).finishedPosts, st.finishedPosts)
    ensures Run(st, raw, evs).resultStickyMap == st.resultStickyMap
    decreases |evs|
  {
    if |evs| > 0 {
      var n := |evs| - 1;
      TriggersOnlyReopen(st, raw, evs[..n]);
    }
  }
}

=== FILE: mod_action.dfy ===
/** Moderation log entries (src/triggers/modAction.ts): removals and approvals
    of candidate comments, and removals and approvals of judged posts. */
module ModAction {
  import opened Base
  import opened Types
  import opened Settings
  import opened TrackedPost
  import opened TrackedComment
  import opened CommentCreate

  /** The comment a log entry targets. */
  datatype TargetComment = TargetComment(id: string, postId: string)

  /** The fields of a `ModAction` notification the handler reads. */
  datatype ModActionEvent = ModActionEvent(
    action: Option<string>,
    targetComment: Option<TargetComment>,
    targetPost: Option<string>
  )

  /** The actions that concern a target comment. */
  predicate CommentAction(a: string) {
    a == "removecomment" || a == "spamcomment" || a == "approvecomment"
  }

  /** The actions that concern a target post. */
  predicate PostAction(a: string) {
    a == "removelink" || a == "spamlink" || a == "approvelink"
  }

  /** The comment part: a removal untracks the comment and drops the post's
      finished marker when its validated winner is that comment; an approval
      fetches the comment (a failure throws) and evaluates it as new. */
  function OnCommentTarget(st: Store, o: Oracle, raw: RawSettings, a: string, t: TargetComment): (r: Outcome)
    ensures !CommentAction(a) ==> r == Outcome(st, [], false)
    ensures r.effects == []
    ensures a == "removecomment" || a == "spamcomment" ==>
              && !r.threw
              && r.store.trackedComments == st.trackedComments - {MemberKey(t.postId, t.id)}
              && r.store.(trackedComments := st.trackedComments, finishedPosts := st.finishedPosts) == st
              && (GetFinishedPostWinner(st, t.postId) == Some(t.id) ==>
                    r.store.finishedPosts == st.finishedPosts - {t.postId})
              && (GetFinishedPostWinner(st, t.postId) != Some(t.id) ==> r.store.finishedPosts == st.finishedPosts)
    ensures a == "approvecomment" ==>
              if o.comment(t.id).Found? then r == EvaluateNewComment(st, o, o.comment(t.id).value, GetAppSettings(raw))
              else r == Outcome(st, [], true)
  {
    if a == "removecomment" || a == "spamcomment" then
      var st1 := UntrackComment(st, t.postId, t.id);
      if GetFinishedPostWinner(st1, t.postId) == Some(t.id) then Outcome(DeleteFinishedPost(st1, t.postId), [], false)
      else Outcome(st1, [], false)
    else if a == "approvecomment" then
      match o.comment(t.id)
      case Found(c) => EvaluateNewComment(st, o, c, GetAppSettings(raw))
      case _ => Outcome(st, [], true)
    else Outcome(st, [], false)
  }

  /** The writes of the post part, and whether it threw. */
  datatype PostPart = PostPart(effects: seq<Effect>, threw: bool)

  /** The post part: for a post action, the post's current sticky is looked up
      (a failure throws) and fetched; `approvelink` approves and then
      distinguishes it, the removals remove it. Failures after the lookup are
      swallowed. */
  function OnPostTarget(o: Oracle, a: string, postId: string): (r: PostPart)
    ensures !PostAction(a) || !o.stickied(postId).Found? ==> r.effects == []
    ensures r.threw <==> PostAction(a) && o.stickied(postId).Failed?
    ensures a == "approvelink" ==> forall e :: e in r.effects ==> e.Approved? || e.Distinguished?
    ensures a == "approvelink" && |r.effects| > 0 ==> r.effects[0].Approved?
    ensures a != "approvelink" ==> forall e :: e in r.effects ==> e.Removed?
    ensures PostAction(a) && o.stickied(postId).Found? && o.comment(o.stickied(postId).value).Found? ==>
              var c := o.comment(o.stickied(postId).value).value;
              if a == "approvelink" then
                && (Approved(c.id) in r.effects <==> o.accepts(Approved(c.id)))
                && (o.accepts(Approved(c.id)) ==> r.effects[0] == Approved(c.id))
                && (Distinguished(c.id) in r.effects <==> o.accepts(Approved(c.id)) && o.accepts(Distinguished(c.id)))
              else
                (Removed(c.id) in r.effects <==> o.accepts(Removed(c.id)))
  {
    if !PostAction(a) then PostPart([], false)
    else match o.stickied(postId)
      case Failed => PostPart([], true)
      case Missing => PostPart([], false)
      case Found(sid) =>
        match o.comment(sid)
        case Found(c) =>
          if a == "approvelink" then
            PostPart(if o.accepts(Approved(c.id)) then [Approved(c.id)] + BestEffort(o, Distinguished(c.id)) else [], false)
          else PostPart(BestEffort(o, Removed(c.id)), false)
        case _ => PostPart([], false)
  }

  /** `onModAction`: an entry without an action does nothing; otherwise the
      comment part runs for a target comment and then, unless it threw, the
      post part for a target post. */
  function OnModAction(st: Store, o: Oracle, raw: RawSettings, e: ModActionEvent): (r: Outcome)
    ensures !Truthy(e.action) ==> r == Outcome(st, [], false)
    ensures Truthy(e.action) && !CommentAction(e.action.value) ==> r.store == st
    ensures e.targetComment.None? ==> r.store == st
    ensures Truthy(e.action) && !CommentAction(e.action.value) && !PostAction(e.action.value) ==>
              r == Outcome(st, [], false)
    ensures Truthy(e.action) && e.targetComment.None? && e.targetPost.Some? ==>
              var p := OnPostTarget(o, e.action.value, e.targetPost.value);
              r == Outcome(st, p.effects, p.threw)
    ensures r.store.trackedPosts == st.trackedPosts && r.store.stickyPostMap == st.stickyPostMap
    ensures r.store.resultStickyMap == st.resultStickyMap
    ensures SubMap(r.store.finishedPosts, st.finishedPosts)
  {
    if !Truthy(e.action) then Outcome(st, [], false)
    else
      var a := e.action.value;
      var c := if e.targetComment.Some? then OnCommentTarget(st, o, raw, a, e.targetComment.value)
               else Outcome(st, [], false);
      if c.threw || e.targetPost.None? then c
      else
        var p := OnPostTarget(o, a, e.targetPost.value);
        Outcome(c.store, c.effects + p.effects, p.threw)
  }

  /** An entry that targets both a comment and a post runs both parts: the
      store is the comment part's, and the post part's writes follow. */
  lemma BothTargetsProcessed(st: Store, o: Oracle, raw: RawSettings, a: string, t: TargetComment, postId: string)
    requires a != "" && !OnCommentTarget(st, o, raw, a, t).threw
    ensures var r := OnModAction(st, o, raw, ModActionEvent(Some(a), Some(t), Some(postId)));
            && r.store == OnCommentTarget(st, o, raw, a, t).store
            && r.effects == OnPostTarget(o, a, postId).effects
  {
  }

  /** `approvecomment` on a comment that can be fetched has the same store
      effect as a new comment with that content. */
  lemma ApproveIsNewComment(st: Store, o: Oracle, raw: RawSettings, t: TargetComment, c: Comment)
    requires o.comment(t.id) == Found(c)
    ensures OnModAction(st, o, raw, ModActionEvent(Some("approvecomment"), Some(t), None))
            == EvaluateNewComment(st, o, c, GetAppSettings(raw))
  {
  }
}

=== FILE: post_create.dfy ===
/** New posts (src/triggers/postCreate.ts): tracking a post that opts in by
    its title prefix and posting the pre-result announcement. */
module PostCreate {
  import opened Base
  import opened Strings
  import opened Types
  import opened Settings
  import opened Templates
  import opened TrackedPost
  import opened PostsUpdater

  /** `newPostSticky.replace(/{{author}}/g, authorName)`, with the `$`
      patterns `String.prototype.replace` expands in the replacement. */
  function NewPostText(template: string, authorName: string): (r: string)
    ensures '$' !in authorName ==> r == ReplaceAll(template, AuthorTag, authorName)
  {
    JsReplaceLiteral(template, AuthorTag, authorName);
    JsReplaceAll(template, AuthorTag, authorName)
  }

  /** A user name has no `$`, so every `{{author}}` of the template is replaced
      by the name itself and the rest of the template is kept verbatim. */
  lemma NewPostTextFills(t: seq<Piece>, authorName: string)
    requires Plain(t) && '$' !in authorName
    ensures NewPostText(Print(t), authorName) == Print(Subst(t, Author, authorName))
  {
    ReplaceTag(t, Author, authorName);
  }

  /** `evaluateNewPost`: a trackable post is tracked with its creation time,
      then announced with the new-post text. The tracking write comes first,
      so it stays when the announcement throws. */
  function EvaluateNewPost(st: Store, o: Oracle, post: Post, s: AppSettings): (r: Outcome)
    ensures !IsTrackablePost(post, s) ==> r == Outcome(st, [], false)
    ensures IsTrackablePost(post, s) ==> r.store.trackedPosts == st.trackedPosts[post.id := post.createdAt]
    ensures r.store.(trackedPosts := st.trackedPosts, stickyPostMap := st.stickyPostMap) == st
    ensures r.store.stickyPostMap - {post.id} == st.stickyPostMap - {post.id}
    ensures IsTrackablePost(post, s) && !r.threw ==> post.id in r.store.stickyPostMap
    ensures IsTrackablePost(post, s) && !Reused(TrackPost(st, post.id, post.createdAt), o, post.id, NewPostText(s.newPostSticky, post.authorName)) ==>
              (r.threw <==> o.submit(post.id, NewPostText(s.newPostSticky, post.authorName)).None?)
    ensures var text := NewPostText(s.newPostSticky, post.authorName);
            IsTrackablePost(post, s) && !Reused(TrackPost(st, post.id, post.createdAt), o, post.id, text) && !r.threw ==>
              && r.store.stickyPostMap[post.id] == o.submit(post.id, text).value
              && Submitted(post.id, r.store.stickyPostMap[post.id], text) in r.effects
    ensures var text := NewPostText(s.newPostSticky, post.authorName);
            IsTrackablePost(post, s) && Reused(TrackPost(st, post.id, post.createdAt), o, post.id, text) ==>
              && !r.threw
              && r.store.stickyPostMap == st.stickyPostMap
              && Edited(o.comment(st.stickyPostMap[post.id]).value.id, text) in r.effects
              && forall e :: e in r.effects ==> !e.Submitted?
  {
    if !IsTrackablePost(post, s) then Outcome(st, [], false)
    else
      var st1 := TrackPost(st, post.id, post.createdAt);
      var a := AddOrUpdateSticky(st1, o, post.id, NewPostText(s.newPostSticky, post.authorName));
      Outcome(a.store, a.effects, a.sticky.None?)
  }

  /** `onPostCreate`: an event without a post id, or whose post is not found,
      does nothing; a failing fetch throws. */
  function OnPostCreate(st: Store, o: Oracle, raw: RawSettings, postId: Option<string>): (r: Outcome)
    ensures !Truthy(postId) ==> r == Outcome(st, [], false)
    ensures Truthy(postId) && o.post(postId.value).Missing? ==> r == Outcome(st, [], false)
    ensures Truthy(postId) && o.post(postId.value).Failed? ==> r == Outcome(st, [], true)
    ensures Truthy(postId) && o.post(postId.value).Found? ==>
              r == EvaluateNewPost(st, o, o.post(postId.value).value, GetAppSettings(raw))
    ensures r.store.trackedComments == st.trackedComments && r.store.finishedPosts == st.finishedPosts
    ensures r.store.resultStickyMap == st.resultStickyMap
  {
    if !Truthy(postId) then Outcome(st, [], false)
    else match o.post(postId.value)
      case Found(post) => EvaluateNewPost(st, o, post, GetAppSettings(raw))
      case Missing => Outcome(st, [], false)
      case Failed => Outcome(st, [], true)
  }

  /** Round trip through the trigger: after `onPostCreate` of a trackable post
      the post reads as tracked exactly when its creation time is non-zero,
      and a range over a listing of every member lists it exactly when its
      creation time lies in the range. */
  lemma CreateThenRange(st: Store, o: Oracle, raw: RawSettings, id: string, min: int, max: int, ranking: seq<string>)
    requires id != "" && o.post(id).Found? && IsTrackablePost(o.post(id).value, GetAppSettings(raw))
    requires RankingComplete(OnPostCreate(st, o, raw, Some(id)).store, ranking)
    ensures var post := o.post(id).value;
            var r := OnPostCreate(st, o, raw, Some(id)).store;
            && (IsTrackedPost(r, post.id) <==> post.createdAt != 0)
            && (post.id in Records.Keys(GetTrackedPosts(r, min, max, ranking)) <==> min <= post.createdAt <= max)
  {
  }
}

=== FILE: post_delete.dfy ===
/** Post deletions by their authors (src/triggers/postDelete.ts). */
module PostDelete {
  import opened Base
  import opened Types
  import opened TrackedPost
  import opened StickyComments

  /** The fields of a `PostDelete` notification the handler reads. */
  datatype PostDeleteEvent = PostDeleteEvent(postId: Option<string>, source: Option<EventSource>)

  /** The guard chain: a post id, a source equal to `USER`, and a tracked
      post. */
  predicate Acts(st: Store, e: PostDeleteEvent) {
    && Truthy(e.postId) && !SourceMissing(e.source) && e.source.value == User
    && IsTrackedPost(st, e.postId.value)
  }

  /** `onPostDelete`: untrack the post, then look up its current sticky (a
      failure throws; none ends the handler), fetch and delete it, and only
      then drop the post's sticky mapping. A failing fetch or delete throws
      with the post already untracked. */
  function OnPostDelete(st: Store, o: Oracle, e: PostDeleteEvent): (r: Outcome)
    ensures !Acts(st, e) ==> r == Outcome(st, [], false)
    ensures Acts(st, e) ==> r.store.trackedPosts == st.trackedPosts - {e.postId.value}
    ensures r.store.(trackedPosts := st.trackedPosts, stickyPostMap := st.stickyPostMap) == st
    ensures r.store.stickyPostMap == st.stickyPostMap || r.store.stickyPostMap == st.stickyPostMap - {e.postId.value}
    ensures r.store.stickyPostMap != st.stickyPostMap ==>
              && !r.threw
              && o.stickied(e.postId.value).Found?
              && o.comment(o.stickied(e.postId.value).value).Found?
              && r.effects == [Deleted(o.comment(o.stickied(e.postId.value).value).value.id)]
    ensures Acts(st, e) && !o.stickied(e.postId.value).Found? ==>
              r.store.stickyPostMap == st.stickyPostMap && r.effects == []
    ensures Acts(st, e) && o.stickied(e.postId.value).Found? ==>
              (r.threw <==> !o.comment(o.stickied(e.postId.value).value).Found?
                            || !o.accepts(Deleted(o.comment(o.stickied(e.postId.value).value).value.id)))
    ensures Acts(st, e) && o.stickied(e.postId.value).Found? && o.comment(o.stickied(e.postId.value).value).Found? &&
            o.accepts(Deleted(o.comment(o.stickied(e.postId.value).value).value.id)) ==>
              && r.store.stickyPostMap == st.stickyPostMap - {e.postId.value}
              && r.effects == [Deleted(o.comment(o.stickied(e.postId.value).value).value.id)]
  {
    if !Truthy(e.postId) then Outcome(st, [], false)
    else if SourceMissing(e.source) then Outcome(st, [], false)
    else if e.source.value != User then Outcome(st, [], false)
    else
      var p := e.postId.value;
      if !IsTrackedPost(st, p) then Outcome(st, [], false)
      else
        var st1 := UntrackPost(st, p);
        match o.stickied(p)
        case Failed => Outcome(st1, [], true)
        case Missing => Outcome(st1, [], false)
        case Found(sid) =>
          match o.comment(sid)
          case Found(c) =>
            if o.accepts(Deleted(c.id)) then Outcome(DelPostStickyComment(st1, p), [Deleted(c.id)], false)
            else Outcome(st1, [], true)
          case _ => Outcome(st1, [], true)
  }

  /** A post tracked with score 0 reads as untracked, so its deletion is
      ignored and it stays in the sorted set. */
  lemma ZeroScorePostIgnored(st: Store, o: Oracle, p: string)
    requires p in st.trackedPosts && st.trackedPosts[p] == 0
    ensures OnPostDelete(st, o, PostDeleteEvent(Some(p), Some(User))) == Outcome(st, [], false)
  {
  }

  /** Once the deletion acts on a post, the post reads as untracked and no
      range lists it: the inverse of tracking it. */
  lemma DeleteUntracks(st: Store, o: Oracle, e: PostDeleteEvent, min: int, max: int, ranking: seq<string>)
    requires Acts(st, e)
    ensures var r := OnPostDelete(st, o, e).store;
            && !IsTrackedPost(r, e.postId.value)
            && e.postId.value !in Records.Keys(GetTrackedPosts(r, min, max, ranking))
  {
  }

  /** Tracking a post with a non-zero time and then deleting it leaves the
      sorted set as it was, less that post. */
  lemma TrackThenDelete(st: Store, o: Oracle, p: string, t: int)
    requires p != "" && t != 0
    ensures OnPostDelete(TrackPost(st, p, t), o, PostDeleteEvent(Some(p), Some(User))).store.trackedPosts
            == st.trackedPosts - {p}
  {
  }
}

=== FILE: posts_updater.dfy ===
/** Resolution (src/scheduler/postsUpdaterJob.ts): the create-or-update of the
    announcement comment, the winner text, the choice of the winner among a
    post's tracked comments, and the periodic sweep over posts whose judging
    window has closed. */
module PostsUpdater {
  import opened Base
  import opened Strings
  import opened Types
  import opened Settings
  import opened Records
  import opened Templates
  import opened TrackedPost
  import opened TrackedComment
  import opened StickyComments

  // ---------------------------------------------------------------------------
  // the announcement comment
  // ---------------------------------------------------------------------------

  /** The result of `addOrUpdateStickiedComment`: the store, the writes to
      Reddit that completed, and the id of the comment returned, or `None` when
      the submission threw. */
  datatype Announced = Announced(store: Store, effects: seq<Effect>, sticky: Option<string>)

  /** `safeDeleteComment`: fetch, then delete; every failure is swallowed. */
  function SafeDelete(o: Oracle, id: string): (es: seq<Effect>)
    ensures forall e :: e in es ==> e.Deleted?
    ensures !o.comment(id).Found? ==> es == []
    ensures o.comment(id).Found? ==>
              (es == [Deleted(o.comment(id).value.id)] <==> o.accepts(Deleted(o.comment(id).value.id)))
    ensures o.comment(id).Found? && !o.accepts(Deleted(o.comment(id).value.id)) ==> es == []
  {
    match o.comment(id)
    case Found(c) => BestEffort(o, Deleted(c.id))
    case _ => []
  }

  /** The tail of `addOrUpdateStickiedComment`: submit a new comment, record it
      as the post's sticky, then distinguish and lock it on a best-effort basis.
      A failing submission throws. */
  function SubmitSticky(st: Store, o: Oracle, postId: string, body: string, done: seq<Effect>): Announced {
    match o.submit(postId, body)
    case None => Announced(st, done, None)
    case Some(id) =>
      Announced(SetPostStickyComment(st, postId, id),
                done + [Submitted(postId, id, body)] + BestEffort(o, Distinguished(id)) + BestEffort(o, Locked(id)),
                Some(id))
  }

  /** The existing announcement is kept: the post has a mapping, the comment is
      fetched, and both its edit and its approval succeed. */
  predicate Reused(st: Store, o: Oracle, postId: string, body: string) {
    var existing := GetPostStickyComment(st, postId);
    && Truthy(existing)
    && o.comment(existing.value).Found?
    && o.accepts(Edited(o.comment(existing.value).value.id, body))
    && o.accepts(Approved(o.comment(existing.value).value.id))
  }

  /** The catch path: the post has a mapping, and fetching, editing or
      approving its comment throws. */
  predicate Stale(st: Store, o: Oracle, postId: string, body: string) {
    var existing := GetPostStickyComment(st, postId);
    Truthy(existing) && !o.comment(existing.value).Missing? && !Reused(st, o, postId, body)
  }

  /** `addOrUpdateStickiedComment`. An existing mapping whose comment can be
      edited and approved is kept. When the fetch, edit or approval throws, the
      mapping is dropped and the old comment deleted on a best-effort basis; an
      empty fetch falls through without dropping it. In both cases a new
      comment is submitted and recorded. */
  function AddOrUpdateSticky(st: Store, o: Oracle, postId: string, body: string): (r: Announced)
    ensures r.store == st.(stickyPostMap := r.store.stickyPostMap)
    ensures r.store.stickyPostMap - {postId} == st.stickyPostMap - {postId}
    ensures Reused(st, o, postId, body) ==>
              && r.store == st
              && r.sticky == Some(o.comment(st.stickyPostMap[postId]).value.id)
              && Edited(r.sticky.value, body) in r.effects
              && forall e :: e in r.effects ==> !e.Submitted?
    ensures !Reused(st, o, postId, body) ==> r.sticky == o.submit(postId, body)
    ensures !Reused(st, o, postId, body) && r.sticky.Some? ==>
              && postId in r.store.stickyPostMap
              && r.store.stickyPostMap[postId] == r.sticky.value
              && Submitted(postId, r.sticky.value, body) in r.effects
    ensures r.sticky.None? ==> postId !in r.store.stickyPostMap || r.store.stickyPostMap == st.stickyPostMap
    ensures Stale(st, o, postId, body) && r.sticky.None? ==> postId !in r.store.stickyPostMap
    ensures Stale(st, o, postId, body) && o.comment(st.stickyPostMap[postId]).Found? &&
            o.accepts(Deleted(o.comment(st.stickyPostMap[postId]).value.id)) ==>
              Deleted(o.comment(st.stickyPostMap[postId]).value.id) in r.effects
    ensures Truthy(GetPostStickyComment(st, postId)) && o.comment(st.stickyPostMap[postId]).Missing? ==>
              (r.sticky.None? ==> r.store == st) && forall e :: e in r.effects ==> !e.Deleted?
  {
    var existing := GetPostStickyComment(st, postId);
    if !Truthy(existing) then SubmitSticky(st, o, postId, body, [])
    else
      var id := existing.value;
      match o.comment(id)
      case Missing => SubmitSticky(st, o, postId, body, [])
      case Failed => SubmitSticky(DelPostStickyComment(st, postId), o, postId, body, SafeDelete(o, id))
      case Found(c) =>
        if !o.accepts(Edited(c.id, body)) then
          SubmitSticky(DelPostStickyComment(st, postId), o, postId, body, SafeDelete(o, id))
        else if !o.accepts(Approved(c.id)) then
          SubmitSticky(DelPostStickyComment(st, postId), o, postId, body, [Edited(c.id, body)] + SafeDelete(o, id))
        else
          Announced(st, [Edited(c.id, body), Approved(c.id)] + BestEffort(o, Distinguished(c.id)) + BestEffort(o, Locked(c.id)),
                    Some(c.id))
  }

  /** Announcing twice in a row with the same text creates no second comment:
      when the first call's comment can be fetched, edited and approved, the
      second call only edits it and changes no store key. */
  lemma AnnounceTwiceOnlyEdits(st: Store, o: Oracle, postId: string, body: string)
    requires CommentIdsAgree(o)
    requires var r1 := AddOrUpdateSticky(st, o, postId, body);
             && r1.sticky.Some? && r1.sticky.value != ""
             && o.comment(r1.sticky.value).Found?
             && o.accepts(Edited(r1.sticky.value, body)) && o.accepts(Approved(r1.sticky.value))
    ensures var r1 := AddOrUpdateSticky(st, o, postId, body);
            var r2 := AddOrUpdateSticky(r1.store, o, postId, body);
            && r2.store == r1.store
            && r2.sticky == r1.sticky
            && forall e :: e in r2.effects ==> !e.Submitted?
  {
    var r1 := AddOrUpdateSticky(st, o, postId, body);
    if Reused(st, o, postId, body) {
      assert r1.store.stickyPostMap[postId] == st.stickyPostMap[postId];
    }
    assert postId in r1.store.stickyPostMap && r1.store.stickyPostMap[postId] == r1.sticky.value;
    assert Reused(r1.store, o, postId, body);
  }

  // ---------------------------------------------------------------------------
  // the winner text
  // ---------------------------------------------------------------------------

  /** `getWinnerText` with each value inserted literally: `{{author}}`, then
      `{{permalink}}`, then `{{body}}` (the body as a block quote) replaced
      everywhere in the template. A template without `{` holds no placeholder
      and is posted as it is. */
  function WinnerText(template: string, c: Comment): (r: string)
    ensures '{' !in template ==> r == template
  {
    var a := ReplaceAll(template, AuthorTag, c.authorName);
    var b := ReplaceAll(a, PermalinkTag, c.permalink);
    NoBraceNoTag(template, AuthorTag, c.authorName);
    NoBraceNoTag(a, PermalinkTag, c.permalink);
    NoBraceNoTag(b, BodyTag, Quote(c.body));
    ReplaceAll(b, BodyTag, Quote(c.body))
  }

  /** Text without `{` holds no placeholder, so replacing one leaves it as it is. */
  lemma NoBraceNoTag(s: string, tag: string, v: string)
    requires |tag| > 0 && tag[0] == '{'
    ensures '{' !in s ==> ReplaceAll(s, tag, v) == s
  {
    if '{' !in s {
      forall i | 0 <= i < |s| ensures !MatchAt(s, tag, i) {
        if i + |tag| <= |s| {
          assert s[i..i + |tag|][0] == s[i] != '{';
        }
      }
      ReplaceNoMatch(s, tag, v);
    }
  }

  /** `getWinnerText` as the source evaluates it: `String.prototype.replace`
      expands `$` patterns in each inserted value. Without `$` in the author
      name, permalink and body, this agrees with the literal replacement. */
  function WinnerTextAsWritten(template: string, c: Comment): (r: string)
    ensures '$' !in c.authorName && '$' !in c.permalink && '$' !in c.body ==> r == WinnerText(template, c)
  {
    var q := JsReplaceAll("\n" + c.body, "\n", "\n> ");
    var a := JsReplaceAll(template, AuthorTag, c.authorName);
    var b := JsReplaceAll(a, PermalinkTag, c.permalink);
    JsReplaceLiteral("\n" + c.body, "\n", "\n> ");
    QuoteNoDollar(c.body);
    JsReplaceLiteral(template, AuthorTag, c.authorName);
    JsReplaceLiteral(a, PermalinkTag, c.permalink);
    JsReplaceLiteral(b, BodyTag, q);
    JsReplaceAll(b, BodyTag, q)
  }

  /** For a template whose literal text has no `{` and an author name and
      permalink without `{`, the winner text is the template with every
      placeholder replaced by its value and all other text unchanged; the body
      goes in last, so placeholders inside it stay verbatim. */
  lemma WinnerTextFillsTemplate(t: seq<Piece>, c: Comment)
    requires Plain(t) && '{' !in c.authorName && '{' !in c.permalink
    ensures WinnerText(Print(t), c) == Fill(t, c.authorName, c.permalink, "\n> " + Indent(c.body))
  {
    var t1 := Subst(t, Author, c.authorName);
    var t2 := Subst(t1, Permalink, c.permalink);
    ReplaceTag(t, Author, c.authorName);
    SubstPlain(t, Author, c.authorName);
    ReplaceTag(t1, Permalink, c.permalink);
    SubstPlain(t1, Permalink, c.permalink);
    ReplaceTag(t2, Body, Quote(c.body));
    SubstAllIsFill(t, c.authorName, c.permalink, Quote(c.body));
    QuoteIsIndent(c.body);
  }

  /** A winning body `$&` under the template `{{body}}`: the source writes the
      placeholder back where the body belongs. */
  lemma DollarPatternMangles(c: Comment)
    requires c.body == "$&" && '$' !in c.authorName && '$' !in c.permalink
    ensures WinnerTextAsWritten(BodyTag, c) == "\n> {{body}}"
    ensures WinnerText(BodyTag, c) == "\n> $&"
  {
    var q := "\n> $&";
    QuoteAmp(c.body);
    JsReplacePlain("\n" + c.body, "\n", "\n> ");
    OtherTagsAbsent(c.authorName, c.permalink);
    ExpandAmp(q);
    ReplaceWhole(BodyTag, q);
  }

  /** The body `$&` quotes to `"\n> $&"`. */
  lemma QuoteAmp(body: string)
    requires body == "$&"
    ensures Quote(body) == "\n> $&"
  {
    QuoteIsIndent(body);
    assert Indent(body[1..][1..]) == "";
  }

  /** `{{body}}` holds neither of the other placeholders. */
  lemma OtherTagsAbsent(author: string, permalink: string)
    requires '$' !in author && '$' !in permalink
    ensures JsReplaceAll(BodyTag, AuthorTag, author) == BodyTag
    ensures ReplaceAll(BodyTag, AuthorTag, author) == BodyTag
    ensures JsReplaceAll(BodyTag, PermalinkTag, permalink) == BodyTag
    ensures ReplaceAll(BodyTag, PermalinkTag, permalink) == BodyTag
  {
    ReplaceNoMatch(BodyTag, AuthorTag, author);
    ReplaceNoMatch(BodyTag, PermalinkTag, permalink);
    JsReplacePlain(BodyTag, AuthorTag, author);
    JsReplacePlain(BodyTag, PermalinkTag, permalink);
  }

  /** `"{{body}}".replace(/{{body}}/g, "\n> $&")` inserts the match itself. */
  lemma ExpandAmp(q: string)
    requires q == "\n> $&"
    ensures JsReplaceAll(BodyTag, BodyTag, q) == "\n> {{body}}"
  {
    var s := BodyTag;
    var amp: string := "$&";
    assert Expand(amp, s, 0, |s|) == s by {
      assert amp[2..] == [];
      assert s[0..0 + |s|] == s;
    }
    assert q == "\n" + (">" + (" " + amp));
    assert Expand(" " + amp, s, 0, |s|) == " " + s;
    assert Expand(">" + (" " + amp), s, 0, |s|) == "> " + s;
    assert MatchAt(s, s, 0);
    assert JsReplaceFrom(s, s, q, |s|) == [];
  }

  // ---------------------------------------------------------------------------
  // choosing the winner
  // ---------------------------------------------------------------------------

  /** The filters of `updatePostResult`: not removed, not spam, has an author,
      the body still has the comment prefix, and, unless the original poster
      may win, not written by the post's author. */
  predicate Eligible(c: Comment, post: Post, s: AppSettings) {
    && !c.isRemoved && !c.isSpam && !c.removed
    && Truthy(c.authorId)
    && HasPrefix(c.body, s.commentPrefix)
    && !(!s.allowOp && c.authorId == post.authorId)
  }

  /** Candidate `i` was fetched (a failed or empty fetch leaves `None`) and
      passes the filters. */
  predicate EligibleAt(cs: seq<Option<Comment>>, i: int, post: Post, s: AppSettings) {
    0 <= i < |cs| && cs[i].Some? && Eligible(cs[i].value, post, s)
  }

  /** The scan of `updatePostResult` over the fetched candidates in order,
      keeping a candidate only when its score is strictly higher than the best
      so far: the index of the first eligible candidate of maximal score. */
  function Best(cs: seq<Option<Comment>>, post: Post, s: AppSettings): (r: Option<nat>)
    ensures r.None? <==> forall i :: 0 <= i < |cs| ==> !EligibleAt(cs, i, post, s)
    ensures r.Some? ==> EligibleAt(cs, r.value, post, s)
    ensures r.Some? ==> forall j :: EligibleAt(cs, j, post, s) ==> cs[j].value.score <= cs[r.value].value.score
    ensures r.Some? ==> forall j :: 0 <= j < r.value && EligibleAt(cs, j, post, s) ==>
                                    cs[j].value.score < cs[r.value].value.score
    decreases |cs|
  {
    if |cs| == 0 then None
    else
      var n := |cs| - 1;
      var prev := Best(cs[..n], post, s);
      assert forall j :: 0 <= j < n ==> (EligibleAt(cs[..n], j, post, s) <==> EligibleAt(cs, j, post, s));
      if !EligibleAt(cs, n, post, s) then prev
      else if prev.None? then Some(n)
      else if cs[n].value.score > cs[prev.value].value.score then Some(n)
      else prev
  }

  /** The first-maximum characterisation picks out exactly the index `Best`
      returns: ties go to the earliest candidate in scan order. */
  lemma BestIsFirstMax(cs: seq<Option<Comment>>, post: Post, s: AppSettings, k: nat)
    ensures Best(cs, post, s) == Some(k) <==>
            && EligibleAt(cs, k, post, s)
            && (forall j :: EligibleAt(cs, j, post, s) ==> cs[j].value.score <= cs[k].value.score)
            && (forall j :: 0 <= j < k && EligibleAt(cs, j, post, s) ==> cs[j].value.score < cs[k].value.score)
  {
  }

  /** The comment ids of the post's tracked candidates, in record order. */
  function CandidateIds(st: Store, o: Oracle, postId: string): seq<string> {
    Keys(GetTrackedComments(st, postId, o.scan(postId)))
  }

  /** Each candidate fetched; a throwing or empty fetch drops the candidate. */
  function Fetched(o: Oracle, ids: seq<string>): (cs: seq<Option<Comment>>)
    ensures |cs| == |ids|
    ensures forall i :: 0 <= i < |ids| ==> (cs[i].Some? <==> o.comment(ids[i]).Found?)
    ensures forall i :: 0 <= i < |ids| && cs[i].Some? ==> o.comment(ids[i]) == Found(cs[i].value)
  {
    seq(|ids|, i requires 0 <= i < |ids| => if o.comment(ids[i]).Found? then Some(o.comment(ids[i]).value) else None)
  }

  /** The winner of `updatePostResult`: the fetched candidate of highest live
      score that passes every filter, the first one in record order on a tie;
      a failed fetch drops only its own candidate. */
  function Resolve(st: Store, o: Oracle, post: Post, s: AppSettings): (w: Option<Comment>)
    ensures var cs := Fetched(o, CandidateIds(st, o, post.id));
            w.None? <==> forall i :: 0 <= i < |cs| ==> !EligibleAt(cs, i, post, s)
    ensures w.Some? ==> Eligible(w.value, post, s)
    ensures w.Some? && !s.allowOp ==> w.value.authorId != post.authorId
    ensures var cs := Fetched(o, CandidateIds(st, o, post.id));
            w.Some? ==> forall i :: EligibleAt(cs, i, post, s) ==> cs[i].value.score <= w.value.score
    ensures var ids := CandidateIds(st, o, post.id);
            var cs := Fetched(o, ids);
            w.Some? ==> exists k :: && EligibleAt(cs, k, post, s) && o.comment(ids[k]) == Found(w.value)
                                    && forall j :: 0 <= j < k && EligibleAt(cs, j, post, s) ==>
                                                   cs[j].value.score < w.value.score
  {
    var ids := CandidateIds(st, o, post.id);
    var cs := Fetched(o, ids);
    match Best(cs, post, s)
    case None => None
    case Some(k) => cs[k]
  }

  /** The winner depends on the store only through the tracked comments. */
  lemma {:induction false} TrackedCommentsDetermine(st1: Store, st2: Store, postId: string, scan: seq<string>)
    requires st1.trackedComments == st2.trackedComments
    ensures GetTrackedComments(st1, postId, scan) == GetTrackedComments(st2, postId, scan)
    decreases |scan|
  {
    if |scan| > 0 {
      TrackedCommentsDetermine(st1, st2, postId, scan[..|scan| - 1]);
    }
  }

  // ---------------------------------------------------------------------------
  // committing a result
  // ---------------------------------------------------------------------------

  /** `updatePostResult`: with a winner, announce the winner text as the
      source computes it, map the winner to the announcement and mark the post
      finished with the winner. */
  function UpdatePostResult(st: Store, o: Oracle, post: Post, s: AppSettings): (r: Outcome)
    ensures Resolve(st, o, post, s).None? ==> r == Outcome(st, [], false)
    ensures r.store.trackedPosts == st.trackedPosts && r.store.trackedComments == st.trackedComments
    ensures r.store.stickyPostMap - {post.id} == st.stickyPostMap - {post.id}
    ensures r.store.finishedPosts - {post.id} == st.finishedPosts - {post.id}
    ensures r.threw ==> r.store.finishedPosts == st.finishedPosts && r.store.resultStickyMap == st.resultStickyMap
    ensures var w := Resolve(st, o, post, s);
            w.Some? && !r.threw ==>
              var a := AddOrUpdateSticky(st, o, post.id, WinnerTextAsWritten(s.stickyTemplate, w.value));
              && a.sticky.Some?
              && r.store.finishedPosts == st.finishedPosts[post.id := w.value.id]
              && r.store.resultStickyMap == st.resultStickyMap[w.value.id := a.sticky.value]
    ensures var w := Resolve(st, o, post, s);
            w.Some? ==> var a := AddOrUpdateSticky(st, o, post.id, WinnerTextAsWritten(s.stickyTemplate, w.value));
                        r.effects == a.effects && r.store.stickyPostMap == a.store.stickyPostMap
    ensures var w := Resolve(st, o, post, s);
            w.Some? && (forall t :: o.submit(post.id, t).Some?) ==> !r.threw
  {
    match Resolve(st, o, post, s)
    case None => Outcome(st, [], false)
    case Some(w) =>
      var a := AddOrUpdateSticky(st, o, post.id, WinnerTextAsWritten(s.stickyTemplate, w));
      match a.sticky
      case None => Outcome(a.store, a.effects, true)
      case Some(id) =>
        Outcome(SetFinishedPost(SetResultComment(a.store, w.id, id), post.id, w.id), a.effects, false)
  }

  // ---------------------------------------------------------------------------
  // the sweep
  // ---------------------------------------------------------------------------

  /** One post of the sweep: skipped when it already has a finished marker;
      otherwise fetched and resolved. Any error is caught, and the store writes
      made before it stay. */
  function ProcessPost(st: Store, o: Oracle, s: AppSettings, finished: set<string>, postId: string): (r: Outcome)
    ensures postId in finished || !o.post(postId).Found? ==> r == Outcome(st, [], false)
    ensures !r.threw
    ensures r.store.trackedPosts == st.trackedPosts && r.store.trackedComments == st.trackedComments
    ensures PostIdsAgree(o) ==> && r.store.finishedPosts - {postId} == st.finishedPosts - {postId}
                                && r.store.stickyPostMap - {postId} == st.stickyPostMap - {postId}
  {
    if postId in finished then Outcome(st, [], false)
    else match o.post(postId)
      case Found(post) =>
        var u := UpdatePostResult(st, o, post, s);
        Outcome(u.store, u.effects, false)
      case _ => Outcome(st, [], false)
  }

  /** The sweep loop over `ids`, in order. It never throws, never tracks or
      untracks, and only sets finished markers of the posts it visits. */
  function SweepLoop(st: Store, o: Oracle, s: AppSettings, finished: set<string>, ids: seq<string>): (r: Outcome)
    ensures !r.threw
    ensures r.store.trackedPosts == st.trackedPosts && r.store.trackedComments == st.trackedComments
    ensures PostIdsAgree(o) ==> forall p :: p in r.store.finishedPosts && p !in st.finishedPosts ==> p in ids
    decreases |ids|
  {
    if |ids| == 0 then Outcome(st, [], false)
    else
      var n := |ids| - 1;
      var prev := SweepLoop(st, o, s, finished, ids[..n]);
      var step := ProcessPost(prev.store, o, s, finished, ids[n]);
      Outcome(step.store, prev.effects + step.effects, false)
  }

  /** The end of the judging window for posts, `now - stickyMinutes * 60000`. */
  function Cutoff(s: AppSettings, now: int): int {
    now - s.stickyMinutes * 60 * 1000
  }

  /** `onPostsUpdaterJob`: when enabled, every tracked post whose timestamp lies
      in `[0, now - stickyMinutes * 60000]` and that has no finished marker is
      resolved, in the order of the range query; `ranking` is the order in
      which the sorted set lists its members. */
  function OnPostsUpdaterJob(st: Store, o: Oracle, raw: RawSettings, now: int, ranking: seq<string>): (r: Outcome)
    ensures !GetAppSettings(raw).enabled ==> r == Outcome(st, [], false)
    ensures !r.threw
  {
    var s := GetAppSettings(raw);
    if !s.enabled then Outcome(st, [], false)
    else
      var posts := GetTrackedPosts(st, 0, Cutoff(s, now), ranking);
      if |Keys(posts)| == 0 then Outcome(st, [], false)
      else SweepLoop(st, o, s, GetFinishedPosts(st), Keys(posts))
  }

  /** The sweep never tracks or untracks anything, and leaves the finished
      marker and sticky mapping of every post it does not process as they were. */
  lemma {:induction false} SweepLoopFrame(st: Store, o: Oracle, s: AppSettings, finished: set<string>,
                                         ids: seq<string>, p: string)
    requires PostIdsAgree(o)
    requires p !in ids || p in finished
    ensures var r := SweepLoop(st, o, s, finished, ids).store;
            && r.trackedPosts == st.trackedPosts && r.trackedComments == st.trackedComments
            && (p in r.finishedPosts <==> p in st.finishedPosts)
            && (p in r.finishedPosts ==> r.finishedPosts[p] == st.finishedPosts[p])
            && (p in r.stickyPostMap <==> p in st.stickyPostMap)
            && (p in r.stickyPostMap ==> r.stickyPostMap[p] == st.stickyPostMap[p])
    decreases |ids|
  {
    if |ids| > 0 {
      var n := |ids| - 1;
      assert ids == ids[..n] + [ids[n]];
      SweepLoopFrame(st, o, s, finished, ids[..n], p);
      var prev := SweepLoop(st, o, s, finished, ids[..n]).store;
      var next := ProcessPost(prev, o, s, finished, ids[n]).store;
      if p != ids[n] {
        assert p in next.finishedPosts <==> p in next.finishedPosts - {ids[n]};
        assert p in next.stickyPostMap <==> p in next.stickyPostMap - {ids[n]};
        assert p in prev.finishedPosts <==> p in prev.finishedPosts - {ids[n]};
        assert p in prev.stickyPostMap <==> p in prev.stickyPostMap - {ids[n]};
        if p in next.finishedPosts {
          assert next.finishedPosts[p] == (next.finishedPosts - {ids[n]})[p];
        }
        if p in next.stickyPostMap {
          assert next.stickyPostMap[p] == (next.stickyPostMap - {ids[n]})[p];
        }
      }
    }
  }

  /** A due post whose winner exists and whose announcement can be submitted is
      marked finished with its winner, whatever happened to the posts before
      it: an error on one post does not stop the sweep or undo its result. */
  lemma {:induction false} SweepLoopResolves(st: Store, o: Oracle, s: AppSettings, finished: set<string>,
                                             ids: seq<string>, k: nat)
    requires PostIdsAgree(o)
    requires Distinct(ids) && k < |ids|
    requires ids[k] !in finished && o.post(ids[k]).Found?
    requires Resolve(st, o, o.post(ids[k]).value, s).Some?
    requires forall t :: o.submit(ids[k], t).Some?
    ensures var r := SweepLoop(st, o, s, finished, ids).store;
            && ids[k] in r.finishedPosts
            && r.finishedPosts[ids[k]] == Resolve(st, o, o.post(ids[k]).value, s).value.id
    decreases |ids|
  {
    var n := |ids| - 1;
    var p := ids[k];
    var prev := SweepLoop(st, o, s, finished, ids[..n]).store;
    assert Distinct(ids[..n]);
    if k == n {
      var post := o.post(p).value;
      TrackedCommentsDetermine(prev, st, post.id, o.scan(post.id));
      assert Resolve(prev, o, post, s) == Resolve(st, o, post, s);
    } else {
      SweepLoopResolves(st, o, s, finished, ids[..n], k);
      var next := ProcessPost(prev, o, s, finished, ids[n]).store;
      assert ids[n] != p;
      assert p in prev.finishedPosts - {ids[n]};
      assert next.finishedPosts[p] == (next.finishedPosts - {ids[n]})[p];
    }
  }

  /** `onPostsUpdaterJob` changes neither tracked set, and a post that is
      outside the window, not listed, or already finished keeps its finished
      marker and its sticky mapping. */
  lemma SweepLeavesUndue(st: Store, o: Oracle, raw: RawSettings, now: int, ranking: seq<string>, p: string)
    requires PostIdsAgree(o)
    requires var s := GetAppSettings(raw);
             p in st.finishedPosts || p !in ranking || !InWindow(st, 0, Cutoff(s, now), p)
    ensures var r := OnPostsUpdaterJob(st, o, raw, now, ranking).store;
            && r.trackedPosts == st.trackedPosts && r.trackedComments == st.trackedComments
            && (p in r.finishedPosts <==> p in st.finishedPosts)
            && (p in r.finishedPosts ==> r.finishedPosts[p] == st.finishedPosts[p])
            && (p in r.stickyPostMap <==> p in st.stickyPostMap)
            && (p in r.stickyPostMap ==> r.stickyPostMap[p] == st.stickyPostMap[p])
  {
    var s := GetAppSettings(raw);
    if s.enabled {
      var posts := GetTrackedPosts(st, 0, Cutoff(s, now), ranking);
      SweepLoopFrame(st, o, s, GetFinishedPosts(st), Keys(posts), p);
    }
  }

  /** `onPostsUpdaterJob` marks every due post finished with its winner when
      the post can be fetched, has a winner, and its announcement can be
      submitted. */
  lemma SweepResolvesDue(st: Store, o: Oracle, raw: RawSettings, now: int, ranking: seq<string>, p: string)
    requires PostIdsAgree(o)
    requires GetAppSettings(raw).enabled
    requires RankingComplete(st, ranking) && InWindow(st, 0, Cutoff(GetAppSettings(raw), now), p) && p !in st.finishedPosts
    requires o.post(p).Found? && Resolve(st, o, o.post(p).value, GetAppSettings(raw)).Some?
    requires forall t :: o.submit(p, t).Some?
    ensures var r := OnPostsUpdaterJob(st, o, raw, now, ranking).store;
            && p in r.finishedPosts
            && r.finishedPosts[p] == Resolve(st, o, o.post(p).value, GetAppSettings(raw)).value.id
  {
    var s := GetAppSettings(raw);
    var ids := Keys(GetTrackedPosts(st, 0, Cutoff(s, now), ranking));
    assert p in ids;
    var k :| 0 <= k < |ids| && ids[k] == p;
    SweepLoopResolves(st, o, s, GetFinishedPosts(st), ids, k);
  }
}

=== FILE: records.dfy ===
/** A JavaScript object with string keys and number values, as the store
    functions build them (`TrackedComments`, `Record<string, number>`): an ordered
    list of entries. Assigning to a present key replaces its value in place;
    assigning to a new key appends it, so `Object.keys` lists keys in order of
    first insertion. */
module Records {
  import opened Base

  datatype Entry = Entry(key: string, value: int)

  /** `Object.keys`. */
  function Keys(r: seq<Entry>): (ks: seq<string>)
    ensures |ks| == |r|
    ensures forall i :: 0 <= i < |r| ==> ks[i] == r[i].key
  {
    seq(|r|, i requires 0 <= i < |r| => r[i].key)
  }

  /** No key is listed twice. */
  predicate Distinct(ks: seq<string>) {
    forall i, j :: 0 <= i < j < |ks| ==> ks[i] != ks[j]
  }

  /** The position of the first occurrence of `k`. */
  function IndexOf(ks: seq<string>, k: string): (i: nat)
    requires k in ks
    ensures i < |ks| && ks[i] == k
    ensures forall j :: 0 <= j < i ==> ks[j] != k
    decreases |ks|
  {
    if ks[0] == k then 0 else 1 + IndexOf(ks[1..], k)
  }

  /** `obj[k]`: the value of the first entry with key `k`. */
  function Lookup(r: seq<Entry>, k: string): (v: Option<int>)
    ensures v.None? <==> k !in Keys(r)
    ensures v.Some? ==> Entry(k, v.value) in r
  {
    if k in Keys(r) then Some(r[IndexOf(Keys(r), k)].value) else None
  }

  /** `obj[k] = v`: a present key keeps its place, a new key goes last. */
  function Put(r: seq<Entry>, k: string, v: int): (r': seq<Entry>)
    ensures k in Keys(r) ==> Keys(r') == Keys(r)
    ensures k !in Keys(r) ==> Keys(r') == Keys(r) + [k]
  {
    if k in Keys(r) then r[IndexOf(Keys(r), k) := Entry(k, v)] else r + [Entry(k, v)]
  }

  /** After `obj[k] = v`, `obj[k]` is `v` and every other key reads as before. */
  lemma PutLookup(r: seq<Entry>, k: string, v: int, k': string)
    ensures Lookup(Put(r, k, v), k') == (if k' == k then Some(v) else Lookup(r, k'))
  {
    var ks := Keys(r);
    if k !in ks && k' in ks {
      var i, j := IndexOf(ks + [k], k'), IndexOf(ks, k');
      assert (ks + [k])[j] == k';
      assert i < |ks| && ks[i] == (ks + [k])[i];
      assert i == j;
    }
  }

  /** `PutLookup` for every key at once. */
  lemma PutLookupAll(r: seq<Entry>, k: string, v: int)
    ensures forall k' :: Lookup(Put(r, k, v), k') == (if k' == k then Some(v) else Lookup(r, k'))
  {
    forall k' ensures Lookup(Put(r, k, v), k') == (if k' == k then Some(v) else Lookup(r, k')) {
      PutLookup(r, k, v, k');
    }
  }

  /** An assignment keeps the keys distinct. */
  lemma PutDistinct(r: seq<Entry>, k: string, v: int)
    requires Distinct(Keys(r))
    ensures Distinct(Keys(Put(r, k, v)))
  {
  }
}

=== FILE: settings.dfy ===
/** The app's configuration: the typed record, its documented defaults, and the
    per-field type-checked fallback applied to whatever the settings client returns
    (src/settings.ts). */
module Settings {

  /** The settings the engine reads. `stickyMinutes` is a JavaScript number in the
      source; it is an integer here. */
  datatype AppSettings = AppSettings(
    enabled: bool,
    trackNewPosts: bool,
    stickyMinutes: int,
    postPrefix: string,
    commentPrefix: string,
    stickyTemplate: string,
    newPostSticky: string,
    allowOp: bool
  )

  /** The documented defaults. */
  const Defaults := AppSettings(
    false,
    false,
    720,
    "TI ",
    "FU ",
    "This is how you fucked up, as was written by u/{{author}} in [this comment]({{permalink}}):\n\n{{body}}",
    "Thank you for submitting what you did. You will find out how you fucked up in 12 hours.",
    true
  )

  /** A raw value from the settings client, classified by its `typeof`;
      `Other` is anything that is not a boolean, number or string. */
  datatype Raw = Bool(b: bool) | Num(n: int) | Str(s: string) | Other

  /** What `getAll` returns: a missing key reads as `undefined`. */
  type RawSettings = map<string, Raw>

  /** The eight settings, used to state per-field properties uniformly. */
  datatype Field = Enabled | TrackNewPosts | StickyMinutes | PostPrefix | CommentPrefix
                 | StickyTemplate | NewPostSticky | AllowOp

  /** The settings key of a field. */
  function Name(f: Field): string {
    match f
    case Enabled => "enabled"
    case TrackNewPosts => "trackNewPosts"
    case StickyMinutes => "stickyMinutes"
    case PostPrefix => "postPrefix"
    case CommentPrefix => "commentPrefix"
    case StickyTemplate => "stickyTemplate"
    case NewPostSticky => "newPostSticky"
    case AllowOp => "allowOp"
  }

  /** The JavaScript type a field must have: 0 boolean, 1 number, 2 string. */
  function Kind(f: Field): nat {
    match f
    case Enabled | TrackNewPosts | AllowOp => 0
    case StickyMinutes => 1
    case PostPrefix | CommentPrefix | StickyTemplate | NewPostSticky => 2
  }

  /** The type of a raw value in the same numbering; `Other` matches no field. */
  function KindOf(v: Raw): nat {
    match v
    case Bool(_) => 0
    case Num(_) => 1
    case Str(_) => 2
    case Other => 3
  }

  /** A field of a settings record, as a raw value of its type. */
  function Get(s: AppSettings, f: Field): (v: Raw)
    ensures KindOf(v) == Kind(f)
  {
    match f
    case Enabled => Bool(s.enabled)
    case TrackNewPosts => Bool(s.trackNewPosts)
    case StickyMinutes => Num(s.stickyMinutes)
    case PostPrefix => Str(s.postPrefix)
    case CommentPrefix => Str(s.commentPrefix)
    case StickyTemplate => Str(s.stickyTemplate)
    case NewPostSticky => Str(s.newPostSticky)
    case AllowOp => Bool(s.allowOp)
  }

  function BoolOr(raw: RawSettings, key: string, d: bool): bool {
    if key in raw && raw[key].Bool? then raw[key].b else d
  }

  function NumOr(raw: RawSettings, key: string, d: int): int {
    if key in raw && raw[key].Num? then raw[key].n else d
  }

  function StrOr(raw: RawSettings, key: string, d: string): string {
    if key in raw && raw[key].Str? then raw[key].s else d
  }

  /** `getAppSettings`: each field is the raw value when it has the field's type,
      and the default otherwise. */
  function GetAppSettings(raw: RawSettings): (r: AppSettings)
    ensures forall f :: Get(r, f) == (if Name(f) in raw && KindOf(raw[Name(f)]) == Kind(f)
                                      then raw[Name(f)] else Get(Defaults, f))
  {
    AppSettings(
      BoolOr(raw, "enabled", Defaults.enabled),
      BoolOr(raw, "trackNewPosts", Defaults.trackNewPosts),
      NumOr(raw, "stickyMinutes", Defaults.stickyMinutes),
      StrOr(raw, "postPrefix", Defaults.postPrefix),
      StrOr(raw, "commentPrefix", Defaults.commentPrefix),
      StrOr(raw, "stickyTemplate", Defaults.stickyTemplate),
      StrOr(raw, "newPostSticky", Defaults.newPostSticky),
      BoolOr(raw, "allowOp", Defaults.allowOp)
    )
  }

  /** A settings record written out as raw values under its keys. */
  function ToRaw(s: AppSettings): (raw: RawSettings)
    ensures forall f :: Name(f) in raw && raw[Name(f)] == Get(s, f)
  {
    map[
      "enabled" := Bool(s.enabled),
      "trackNewPosts" := Bool(s.trackNewPosts),
      "stickyMinutes" := Num(s.stickyMinutes),
      "postPrefix" := Str(s.postPrefix),
      "commentPrefix" := Str(s.commentPrefix),
      "stickyTemplate" := Str(s.stickyTemplate),
      "newPostSticky" := Str(s.newPostSticky),
      "allowOp" := Bool(s.allowOp)
    ]
  }

  /** Two settings records that agree on every field are equal. */
  lemma FieldsDetermine(a: AppSettings, b: AppSettings)
    requires forall f :: Get(a, f) == Get(b, f)
    ensures a == b
  {
    assert Get(a, Enabled) == Get(b, Enabled);
    assert Get(a, TrackNewPosts) == Get(b, TrackNewPosts);
    assert Get(a, StickyMinutes) == Get(b, StickyMinutes);
    assert Get(a, PostPrefix) == Get(b, PostPrefix);
    assert Get(a, CommentPrefix) == Get(b, CommentPrefix);
    assert Get(a, StickyTemplate) == Get(b, StickyTemplate);
    assert Get(a, NewPostSticky) == Get(b, NewPostSticky);
    assert Get(a, AllowOp) == Get(b, AllowOp);
  }

  /** A fully well-typed input is returned unchanged, so reading settings back
      through the fallback is idempotent. */
  lemma WellTypedRoundTrip(s: AppSettings)
    ensures GetAppSettings(ToRaw(s)) == s
  {
    var r := GetAppSettings(ToRaw(s));
    forall f ensures Get(r, f) == Get(s, f) {
    }
    FieldsDetermine(r, s);
  }

  /** Applying the fallback twice gives what applying it once does. */
  lemma FallbackIdempotent(raw: RawSettings)
    ensures GetAppSettings(ToRaw(GetAppSettings(raw))) == GetAppSettings(raw)
  {
    WellTypedRoundTrip(GetAppSettings(raw));
  }

  /** A value stored under one field's key, whatever its type, leaves every
      other field of the result as it was. */
  lemma OtherFieldsIndependent(raw: RawSettings, f: Field, v: Raw, g: Field)
    requires g != f
    ensures Get(GetAppSettings(raw[Name(f) := v]), g) == Get(GetAppSettings(raw), g)
  {
    assert Name(g) != Name(f);
  }

  /** With nothing configured every field takes its documented default:
      disabled, new posts untracked, 720 minutes, prefixes "TI " and "FU ",
      the original poster allowed to win. */
  lemma EmptyGivesDefaults()
    ensures GetAppSettings(map[]) == Defaults
    ensures !Defaults.enabled && !Defaults.trackNewPosts && Defaults.stickyMinutes == 720
    ensures Defaults.postPrefix == "TI " && Defaults.commentPrefix == "FU " && Defaults.allowOp
  {
  }
}

=== FILE: sticky_comments.dfy ===
/** Announcement mappings (src/data/stickyComments.ts): `resultStickyMap`
    (winning comment id to announcement id) and `stickyPostMap` (post id to
    announcement id). Reads only warn about a value that is not a comment id;
    they return it all the same. */
module StickyComments {
  import opened Base
  import opened Types

  /** `setResultComment`. */
  function SetResultComment(st: Store, commentId: string, stickyId: string): Store {
    st.(resultStickyMap := st.resultStickyMap[commentId := stickyId])
  }

  /** `getResultComment`. */
  function GetResultComment(st: Store, commentId: string): Option<string> {
    if commentId in st.resultStickyMap then Some(st.resultStickyMap[commentId]) else None
  }

  /** `setPostStickyComment`. */
  function SetPostStickyComment(st: Store, postId: string, stickyId: string): Store {
    st.(stickyPostMap := st.stickyPostMap[postId := stickyId])
  }

  /** `getPostStickyComment`. */
  function GetPostStickyComment(st: Store, postId: string): Option<string> {
    if postId in st.stickyPostMap then Some(st.stickyPostMap[postId]) else None
  }

  /** `delPostStickyComment`. */
  function DelPostStickyComment(st: Store, postId: string): Store {
    st.(stickyPostMap := st.stickyPostMap - {postId})
  }

  /** A result mapping reads back as written, whatever its shape, and other
      comments' mappings are untouched. */
  lemma ResultRoundTrip(st: Store, c: string, s: string, c': string)
    ensures GetResultComment(SetResultComment(st, c, s), c) == Some(s)
    ensures c' != c ==> GetResultComment(SetResultComment(st, c, s), c') == GetResultComment(st, c')
  {
  }

  /** A post's sticky mapping is overwritten, so it holds one value, the last
      one written, whatever its shape; other posts' mappings are untouched. */
  lemma StickyRoundTrip(st: Store, p: string, s1: string, s2: string, q: string)
    ensures GetPostStickyComment(SetPostStickyComment(st, p, s1), p) == Some(s1)
    ensures GetPostStickyComment(SetPostStickyComment(SetPostStickyComment(st, p, s1), p, s2), p) == Some(s2)
    ensures q != p ==> GetPostStickyComment(SetPostStickyComment(st, p, s1), q) == GetPostStickyComment(st, q)
  {
  }

  /** Deleting a post's sticky mapping removes that entry alone and leaves the
      result mappings as they were. */
  lemma DelStickyRemovesOnly(st: Store, p: string, q: string)
    ensures GetPostStickyComment(DelPostStickyComment(st, p), p) == None
    ensures q != p ==> GetPostStickyComment(DelPostStickyComment(st, p), q) == GetPostStickyComment(st, q)
    ensures DelPostStickyComment(st, p).resultStickyMap == st.resultStickyMap
  {
  }
}

=== FILE: strings.dfy ===
/** String primitives the engine relies on: prefix tests, `String.prototype.split`
    on one character, and global replacement of a literal pattern, both as a plain
    literal substitution and with ECMAScript's `$`-pattern expansion of the
    replacement text (`String.prototype.replace` with a string replacement). */
module Strings {

  /** `s.startsWith(p)`: an exact, case-sensitive prefix test. */
  predicate HasPrefix(s: string, p: string) {
    |p| <= |s| && s[..|p|] == p
  }

  /** The pattern occurs in `s` starting at index `i`. */
  predicate MatchAt(s: string, pat: string, i: nat) {
    i + |pat| <= |s| && s[i..i + |pat|] == pat
  }

  // ---------------------------------------------------------------------------
  // split
  // ---------------------------------------------------------------------------

  /** `s.split(sep)` for a one-character separator: the pieces between
      separators, including empty ones. */
  function Split(s: string, sep: char): (parts: seq<string>)
    ensures |parts| >= 1
    ensures sep in s ==> |parts| >= 2
    decreases |s|
  {
    if |s| == 0 then [""]
    else
      var rest := Split(s[1..], sep);
      if s[0] == sep then [""] + rest
      else [[s[0]] + rest[0]] + rest[1..]
  }

  /** A string without the separator splits into itself alone. */
  lemma {:induction false} SplitNoSep(s: string, sep: char)
    requires sep !in s
    ensures Split(s, sep) == [s]
    decreases |s|
  {
    if |s| > 0 {
      assert sep !in s[1..];
      SplitNoSep(s[1..], sep);
      assert [s[0]] + s[1..] == s;
    }
  }

  /** Splitting at the first separator: the part before it comes first. */
  lemma {:induction false} SplitAtFirst(a: string, sep: char, b: string)
    requires sep !in a
    ensures Split(a + [sep] + b, sep) == [a] + Split(b, sep)
    decreases |a|
  {
    var s := a + [sep] + b;
    if |a| == 0 {
      assert s[1..] == b;
    } else {
      assert s[0] == a[0];
      assert s[1..] == a[1..] + [sep] + b;
      assert sep !in a[1..];
      SplitAtFirst(a[1..], sep, b);
      assert [a[0]] + a[1..] == a;
    }
  }

  /** `a + sep + b` with the separator in neither part splits into exactly `[a, b]`. */
  lemma SplitPair(a: string, sep: char, b: string)
    requires sep !in a && sep !in b
    ensures Split(a + [sep] + b, sep) == [a, b]
  {
    SplitAtFirst(a, sep, b);
    SplitNoSep(b, sep);
  }

  // ---------------------------------------------------------------------------
  // literal global replacement
  // ---------------------------------------------------------------------------

  /** `s.replace(/pat/g, rep)` with the replacement inserted literally: scanning
      left to right, every non-overlapping occurrence of `pat` becomes `rep`. */
  function ReplaceAll(s: string, pat: string, rep: string): string
    requires |pat| > 0
    decreases |s|
  {
    if |s| == 0 then []
    else if HasPrefix(s, pat) then rep + ReplaceAll(s[|pat|..], pat, rep)
    else [s[0]] + ReplaceAll(s[1..], pat, rep)
  }

  /** A string in which the pattern never occurs is left unchanged. */
  lemma {:induction false} ReplaceNoMatch(s: string, pat: string, rep: string)
    requires |pat| > 0
    requires forall i :: 0 <= i < |s| ==> !MatchAt(s, pat, i)
    ensures ReplaceAll(s, pat, rep) == s
    decreases |s|
  {
    if |s| > 0 {
      assert !MatchAt(s, pat, 0);
      assert !HasPrefix(s, pat);
      forall i | 0 <= i < |s[1..]|
        ensures !MatchAt(s[1..], pat, i)
      {
        assert !MatchAt(s, pat, i + 1);
        if i + |pat| <= |s[1..]| {
          assert s[1..][i..i + |pat|] == s[i + 1..i + 1 + |pat|];
        }
      }
      ReplaceNoMatch(s[1..], pat, rep);
      assert [s[0]] + s[1..] == s;
    }
  }

  /** The pattern alone is replaced by the replacement. */
  lemma ReplaceWhole(pat: string, rep: string)
    requires |pat| > 0
    ensures ReplaceAll(pat, pat, rep) == rep
  {
    assert HasPrefix(pat, pat);
    assert pat[|pat|..] == [];
    assert rep + [] == rep;
  }

  /** No occurrence of the pattern starts in `x` and runs on into `y`. */
  predicate NoStraddle(x: string, y: string, pat: string) {
    forall i :: 0 <= i < |x| < i + |pat| ==> !MatchAt(x + y, pat, i)
  }

  /** Dropping the first `k` characters of `x` keeps the no-straddle property. */
  lemma NoStraddleDrop(x: string, y: string, pat: string, k: nat)
    requires k <= |x|
    requires NoStraddle(x, y, pat)
    ensures NoStraddle(x[k..], y, pat)
  {
    var x' := x[k..];
    forall i | 0 <= i < |x'| < i + |pat|
      ensures !MatchAt(x' + y, pat, i)
    {
      assert !MatchAt(x + y, pat, i + k);
      assert (x + y)[k..] == x' + y;
      if i + |pat| <= |x' + y| {
        assert (x' + y)[i..i + |pat|] == (x + y)[i + k..i + k + |pat|];
      }
    }
  }

  /** Without a straddling occurrence, `x + y` starts with the pattern exactly
      when a non-empty `x` does. */
  lemma NoStraddlePrefix(x: string, y: string, pat: string)
    requires |x| > 0 && NoStraddle(x, y, pat)
    ensures HasPrefix(x + y, pat) <==> HasPrefix(x, pat)
  {
    if |pat| <= |x| {
      assert (x + y)[..|pat|] == x[..|pat|];
    } else {
      assert !MatchAt(x + y, pat, 0);
    }
  }

  /** Replacement distributes over a concatenation when no occurrence of the
      pattern starts in `x` and runs on into `y`. */
  lemma {:induction false} ReplaceConcat(x: string, y: string, pat: string, rep: string)
    requires |pat| > 0
    requires NoStraddle(x, y, pat)
    ensures ReplaceAll(x + y, pat, rep) == ReplaceAll(x, pat, rep) + ReplaceAll(y, pat, rep)
    decreases |x|
  {
    if |x| == 0 {
      assert x + y == y;
    } else {
      NoStraddlePrefix(x, y, pat);
      var k := if HasPrefix(x, pat) then |pat| else 1;
      NoStraddleDrop(x, y, pat, k);
      ReplaceConcat(x[k..], y, pat, rep);
      assert (x + y)[k..] == x[k..] + y;
      assert (x + y)[0] == x[0];
    }
  }

  // ---------------------------------------------------------------------------
  // ECMAScript replacement patterns
  // ---------------------------------------------------------------------------

  /** GetSubstitution of ECMAScript (section 22.1.3.19.1 of ECMA-262) for a
      pattern without capture groups: in the replacement text `$$` stands for
      `$`, `$&` for the matched text, `` $` `` for the text before the match and
      `$'` for the text after it; every other character, including `$1` and
      `$<`, is copied. The match is `s[pos..pos + len]`. */
  function Expand(rep: string, s: string, pos: nat, len: nat): string
    requires pos + len <= |s|
    decreases |rep|
  {
    if |rep| == 0 then []
    else if |rep| >= 2 && rep[0] == '$' && rep[1] == '$' then "$" + Expand(rep[2..], s, pos, len)
    else if |rep| >= 2 && rep[0] == '$' && rep[1] == '&' then s[pos..pos + len] + Expand(rep[2..], s, pos, len)
    else if |rep| >= 2 && rep[0] == '$' && rep[1] == '`' then s[..pos] + Expand(rep[2..], s, pos, len)
    else if |rep| >= 2 && rep[0] == '$' && rep[1] == '\'' then s[pos + len..] + Expand(rep[2..], s, pos, len)
    else [rep[0]] + Expand(rep[1..], s, pos, len)
  }

  /** `s.replace(/pat/g, rep)` from index `i` on, as ECMAScript evaluates it. */
  function JsReplaceFrom(s: string, pat: string, rep: string, i: nat): string
    requires |pat| > 0 && i <= |s|
    decreases |s| - i
  {
    if i == |s| then []
    else if MatchAt(s, pat, i) then Expand(rep, s, i, |pat|) + JsReplaceFrom(s, pat, rep, i + |pat|)
    else [s[i]] + JsReplaceFrom(s, pat, rep, i + 1)
  }

  /** `s.replace(/pat/g, rep)` as ECMAScript evaluates it. */
  function JsReplaceAll(s: string, pat: string, rep: string): string
    requires |pat| > 0
  {
    JsReplaceFrom(s, pat, rep, 0)
  }

  /** A replacement text without `$` expands to itself. */
  lemma {:induction false} ExpandPlain(rep: string, s: string, pos: nat, len: nat)
    requires pos + len <= |s|
    requires '$' !in rep
    ensures Expand(rep, s, pos, len) == rep
    decreases |rep|
  {
    if |rep| > 0 {
      assert rep[0] != '$';
      assert '$' !in rep[1..];
      ExpandPlain(rep[1..], s, pos, len);
      assert [rep[0]] + rep[1..] == rep;
    }
  }

  /** A match at index `i` is a prefix match of the suffix from `i`. */
  lemma MatchAtSuffix(s: string, pat: string, i: nat)
    requires i <= |s|
    ensures MatchAt(s, pat, i) <==> HasPrefix(s[i..], pat)
  {
    if i + |pat| <= |s| {
      assert s[i..][..|pat|] == s[i..i + |pat|];
    }
  }

  /** Without `$` in the replacement, ECMAScript's replacement is the literal one. */
  lemma {:induction false} JsReplaceFromPlain(s: string, pat: string, rep: string, i: nat)
    requires |pat| > 0 && i <= |s|
    requires '$' !in rep
    ensures JsReplaceFrom(s, pat, rep, i) == ReplaceAll(s[i..], pat, rep)
    decreases |s| - i
  {
    if i < |s| {
      var t := s[i..];
      MatchAtSuffix(s, pat, i);
      if MatchAt(s, pat, i) {
        ExpandPlain(rep, s, i, |pat|);
        JsReplaceFromPlain(s, pat, rep, i + |pat|);
        assert t[|pat|..] == s[i + |pat|..];
        calc {
          JsReplaceFrom(s, pat, rep, i);
          rep + JsReplaceFrom(s, pat, rep, i + |pat|);
          rep + ReplaceAll(t[|pat|..], pat, rep);
          ReplaceAll(t, pat, rep);
        }
      } else {
        JsReplaceFromPlain(s, pat, rep, i + 1);
        assert t[1..] == s[i + 1..];
        calc {
          JsReplaceFrom(s, pat, rep, i);
          [s[i]] + JsReplaceFrom(s, pat, rep, i + 1);
          [t[0]] + ReplaceAll(t[1..], pat, rep);
          ReplaceAll(t, pat, rep);
        }
      }
    }
  }

  /** Without `$` in the replacement, `JsReplaceAll` and `ReplaceAll` agree. */
  lemma JsReplacePlain(s: string, pat: string, rep: string)
    requires |pat| > 0
    requires '$' !in rep
    ensures JsReplaceAll(s, pat, rep) == ReplaceAll(s, pat, rep)
  {
    JsReplaceFromPlain(s, pat, rep, 0);
    assert s[0..] == s;
  }

  /** `JsReplacePlain` as an implication, for use inside function bodies. */
  lemma JsReplaceLiteral(s: string, pat: string, rep: string)
    requires |pat| > 0
    ensures '$' !in rep ==> JsReplaceAll(s, pat, rep) == ReplaceAll(s, pat, rep)
  {
    if '$' !in rep {
      JsReplacePlain(s, pat, rep);
    }
  }
}

=== FILE: templates.dfy ===
/** Placeholder templates: the three placeholders the announcement templates
    use, a template seen as a sequence of pieces, and the facts that make a
    global replacement of one placeholder act piece by piece. */
module Templates {
  import opened Strings

  const AuthorTag: string := "{{author}}"
  const PermalinkTag: string := "{{permalink}}"
  const BodyTag: string := "{{body}}"

  /** A piece of a template: literal text or one of the placeholders. */
  datatype Piece = Text(s: string) | Author | Permalink | Body

  /** The text a piece stands for in the template string. */
  function Show(p: Piece): string {
    match p
    case Text(s) => s
    case Author => AuthorTag
    case Permalink => PermalinkTag
    case Body => BodyTag
  }

  /** The template string the pieces spell. */
  function Print(t: seq<Piece>): string
    decreases |t|
  {
    if |t| == 0 then "" else Show(t[0]) + Print(t[1..])
  }

  /** The reference expansion: every placeholder replaced by its value, every
      literal kept. */
  function Fill(t: seq<Piece>, author: string, permalink: string, body: string): string
    decreases |t|
  {
    if |t| == 0 then ""
    else
      var head := match t[0]
        case Text(s) => s
        case Author => author
        case Permalink => permalink
        case Body => body;
      head + Fill(t[1..], author, permalink, body)
  }

  /** The pieces with every placeholder `k` turned into the literal `v`. */
  function Subst(t: seq<Piece>, k: Piece, v: string): (r: seq<Piece>)
    ensures |r| == |t|
    decreases |t|
  {
    if |t| == 0 then []
    else [if t[0] == k then Text(v) else t[0]] + Subst(t[1..], k, v)
  }

  /** No literal piece contains an opening brace. */
  predicate Plain(t: seq<Piece>) {
    forall i :: 0 <= i < |t| ==> (t[i].Text? ==> '{' !in t[i].s)
  }

  /** The shape shared by the placeholders: two opening braces, then no
      opening brace; the third character tells them apart. */
  lemma TagShape(p: Piece)
    requires !p.Text?
    ensures |Show(p)| > 2 && Show(p)[0] == '{' && Show(p)[1] == '{'
    ensures forall i :: 2 <= i < |Show(p)| ==> Show(p)[i] != '{'
    ensures forall q: Piece :: !q.Text? && Show(q)[2] == Show(p)[2] ==> q == p
  {
  }

  /** An occurrence of a placeholder that starts inside another placeholder
      starts at its first character and is that same placeholder. */
  lemma {:induction false} TagMatch(p: Piece, q: Piece, y: string, i: nat)
    requires !p.Text? && !q.Text?
    requires i < |Show(p)| && MatchAt(Show(p) + y, Show(q), i)
    ensures i == 0 && p == q
  {
    var x, pat := Show(p), Show(q);
    TagShape(p);
    TagShape(q);
    assert (x + y)[i..i + |pat|] == pat;
    assert x[i] == pat[0];
    assert (x + y)[2] == pat[2];
  }

  /** Replacing placeholder `k` in a template with plain literals replaces it
      piece by piece: every occurrence of `k` becomes `v`, and the literals and
      the other placeholders are left verbatim. */
  lemma {:induction false} ReplaceTag(t: seq<Piece>, k: Piece, v: string)
    requires !k.Text?
    requires Plain(t)
    ensures ReplaceAll(Print(t), Show(k), v) == Print(Subst(t, k, v))
    decreases |t|
  {
    if |t| > 0 {
      var x, y, pat := Show(t[0]), Print(t[1..]), Show(k);
      TagShape(k);
      assert Plain(t[1..]) by {
        forall i | 0 <= i < |t[1..]| ensures (t[1..][i].Text? ==> '{' !in t[1..][i].s) {
          assert t[1..][i] == t[i + 1];
        }
      }
      ReplaceTag(t[1..], k, v);
      if t[0].Text? {
        assert '{' !in x;
        ReplaceNoMatch(x, pat, v);
      } else {
        forall i | 0 <= i < |x| < i + |pat| ensures !MatchAt(x + y, pat, i) {
          if MatchAt(x + y, pat, i) {
            TagMatch(t[0], k, y, i);
          }
        }
        if t[0] == k {
          ReplaceWhole(pat, v);
        } else {
          forall i | 0 <= i < |x| ensures !MatchAt(x, pat, i) {
            if MatchAt(x, pat, i) {
              assert x + [] == x;
              TagMatch(t[0], k, [], i);
            }
          }
          ReplaceNoMatch(x, pat, v);
        }
      }
      ReplaceConcat(x, y, pat, v);
      assert Subst(t, k, v) == [if t[0] == k then Text(v) else t[0]] + Subst(t[1..], k, v);
    }
  }

  /** Turning a placeholder into a brace-free literal keeps the template plain. */
  lemma SubstPlain(t: seq<Piece>, k: Piece, v: string)
    requires Plain(t) && '{' !in v
    ensures Plain(Subst(t, k, v))
    decreases |t|
  {
    if |t| > 0 {
      assert Plain(t[1..]) by {
        forall i | 0 <= i < |t[1..]| ensures (t[1..][i].Text? ==> '{' !in t[1..][i].s) {
          assert t[1..][i] == t[i + 1];
        }
      }
      SubstPlain(t[1..], k, v);
    }
  }

  /** Substituting author, permalink and body in turn is the reference expansion. */
  lemma {:induction false} SubstAllIsFill(t: seq<Piece>, author: string, permalink: string, body: string)
    ensures Print(Subst(Subst(Subst(t, Author, author), Permalink, permalink), Body, body))
            == Fill(t, author, permalink, body)
    decreases |t|
  {
    if |t| > 0 {
      SubstAllIsFill(t[1..], author, permalink, body);
      var s1 := Subst(t, Author, author);
      var s2 := Subst(s1, Permalink, permalink);
      var s3 := Subst(s2, Body, body);
      assert s1[1..] == Subst(t[1..], Author, author);
      assert s2[1..] == Subst(s1[1..], Permalink, permalink);
      assert s3[1..] == Subst(s2[1..], Body, body);
    }
  }

  // ---------------------------------------------------------------------------
  // block quotes
  // ---------------------------------------------------------------------------

  /** The reference for quoting: every newline followed by `"> "`. */
  function Indent(s: string): string
    decreases |s|
  {
    if |s| == 0 then "" else (if s[0] == '\n' then "\n> " else [s[0]]) + Indent(s[1..])
  }

  /** `("\n" + body).replace(/\n/g, "\n> ")`: the body as a block quote. */
  function Quote(body: string): string {
    ReplaceAll("\n" + body, "\n", "\n> ")
  }

  /** Replacing newlines by `"\n> "` is the reference indentation. */
  lemma {:induction false} ReplaceNewlines(s: string)
    ensures ReplaceAll(s, "\n", "\n> ") == Indent(s)
    decreases |s|
  {
    if |s| > 0 {
      ReplaceNewlines(s[1..]);
      assert HasPrefix(s, "\n") <==> s[0] == '\n' by {
        assert s[..1] == [s[0]];
      }
    }
  }

  /** The quoted body starts a new quoted line and quotes every later line. */
  lemma QuoteIsIndent(body: string)
    ensures Quote(body) == "\n> " + Indent(body)
  {
    ReplaceNewlines("\n" + body);
    assert ("\n" + body)[1..] == body;
  }

  /** Quoting adds no dollar sign. */
  lemma {:induction false} IndentNoDollar(s: string)
    requires '$' !in s
    ensures '$' !in Indent(s)
    decreases |s|
  {
    if |s| > 0 {
      assert '$' !in s[1..];
      IndentNoDollar(s[1..]);
    }
  }

  /** A body without `$` quotes to text without `$`. */
  lemma QuoteNoDollar(body: string)
    ensures '$' !in body ==> '$' !in Quote(body)
  {
    QuoteIsIndent(body);
    if '$' !in body {
      IndentNoDollar(body);
    }
  }
}

=== FILE: tracked_comment.dfy ===
/** Tracked candidate comments (src/data/trackedComment.ts): the
    `trackedComments` sorted set whose members are `"postId:commentId"` and
    whose scores are score snapshots. */
module TrackedComment {
  import opened Base
  import opened Strings
  import opened Types
  import opened Settings
  import opened Records

  /** `isTrackableComment`. The parent and post id checks come after the
      prefix test and only ever answer `false`, so the answer depends on the
      enabled flag and the body prefix alone. */
  function IsTrackableComment(c: Comment, s: AppSettings): (b: bool)
    ensures b <==> s.enabled && HasPrefix(c.body, s.commentPrefix)
  {
    if !s.enabled then false
    else if HasPrefix(c.body, s.commentPrefix) then true
    else if c.parentId != "" then false
    else if !IsLinkId(c.postId) then false
    else false
  }

  /** The composite member `"postId:commentId"`. */
  function MemberKey(postId: string, commentId: string): string {
    postId + ":" + commentId
  }

  /** `trackComment`: `zAdd` of the composite member with the score. */
  function TrackComment(st: Store, postId: string, commentId: string, score: int): Store {
    st.(trackedComments := st.trackedComments[MemberKey(postId, commentId) := score])
  }

  /** `untrackComment`: `zRem` of the composite member. */
  function UntrackComment(st: Store, postId: string, commentId: string): Store {
    st.(trackedComments := st.trackedComments - {MemberKey(postId, commentId)})
  }

  /** The members one `zAdd` of several entries writes; a later entry for the
      same member overwrites an earlier one. */
  function Members(postId: string, entries: seq<Entry>): map<string, int>
    decreases |entries|
  {
    if |entries| == 0 then map[]
    else
      var n := |entries| - 1;
      Members(postId, entries[..n])[MemberKey(postId, entries[n].key) := entries[n].value]
  }

  /** `trackComments`: one `zAdd` of every entry of the record. */
  function TrackComments(st: Store, postId: string, entries: seq<Entry>): Store {
    st.(trackedComments := st.trackedComments + Members(postId, entries))
  }

  /** `trackComment` called once per entry, in order. */
  function TrackEach(st: Store, postId: string, entries: seq<Entry>): Store
    decreases |entries|
  {
    if |entries| == 0 then st
    else
      var n := |entries| - 1;
      TrackComment(TrackEach(st, postId, entries[..n]), postId, entries[n].key, entries[n].value)
  }

  /** `trackComments(p, m)` has the effect of `trackComment(p, c, s)` for each
      entry `c -> [s]` of `m`. */
  lemma {:induction false} TrackCommentsIsTrackEach(st: Store, postId: string, entries: seq<Entry>)
    ensures TrackComments(st, postId, entries) == TrackEach(st, postId, entries)
    decreases |entries|
  {
    if |entries| == 0 {
      assert st.trackedComments + map[] == st.trackedComments;
    } else {
      var n := |entries| - 1;
      TrackCommentsIsTrackEach(st, postId, entries[..n]);
      var k := MemberKey(postId, entries[n].key);
      var v := entries[n].value;
      assert st.trackedComments + Members(postId, entries[..n])[k := v]
          == (st.trackedComments + Members(postId, entries[..n]))[k := v];
    }
  }

  // ---------------------------------------------------------------------------
  // reading the candidates of a post
  // ---------------------------------------------------------------------------

  /** `const [postId, commentId] = member.split(":")` checked with `isLinkId`
      and `isCommentId`: the first two pieces when they have the right shapes. */
  function Parse(member: string): Option<(string, string)> {
    var parts := Split(member, ':');
    if |parts| >= 2 && IsLinkId(parts[0]) && IsCommentId(parts[1]) then Some((parts[0], parts[1]))
    else None
  }

  /** A member the scan for `postId` returns: stored, and matching `"postId:*"`. */
  predicate Scanned(st: Store, postId: string, m: string) {
    m in st.trackedComments && HasPrefix(m, postId + ":")
  }

  /** `scan` lists every stored member matching `"postId:*"`, as a complete
      `zScan` cursor walk does. */
  ghost predicate ScanListsAll(st: Store, postId: string, scan: seq<string>) {
    forall m :: Scanned(st, postId, m) ==> m in scan
  }

  /** A scanned member that parses to the comment id `c`. */
  predicate Yields(st: Store, postId: string, m: string, c: string) {
    Scanned(st, postId, m) && Parse(m).Some? && Parse(m).value.1 == c
  }

  /** `getTrackedComments`: the members the scan returns, in the scan's order
      `scan`, folded into a record of comment id to score; malformed members are
      skipped. */
  function GetTrackedComments(st: Store, postId: string, scan: seq<string>): (r: seq<Entry>)
    ensures Distinct(Keys(r))
    ensures forall c :: c in Keys(r) ==> exists m :: m in scan && Yields(st, postId, m, c)
    ensures forall m :: m in scan && Scanned(st, postId, m) && Parse(m).Some? ==> Parse(m).value.1 in Keys(r)
    ensures ScanListsAll(st, postId, scan) ==> forall c :: c in Keys(r) <==> exists m :: Yields(st, postId, m, c)
    decreases |scan|
  {
    if |scan| == 0 then []
    else
      var n := |scan| - 1;
      var acc := GetTrackedComments(st, postId, scan[..n]);
      var m := scan[n];
      assert scan == scan[..n] + [m];
      assert forall x :: x in scan[..n] ==> x in scan;
      if Scanned(st, postId, m) && Parse(m).Some? then
        PutDistinct(acc, Parse(m).value.1, st.trackedComments[m]);
        assert Yields(st, postId, m, Parse(m).value.1);
        Put(acc, Parse(m).value.1, st.trackedComments[m])
      else acc
  }

  /** When exactly one member in the scan yields comment `c`, the record maps
      `c` to that member's score. */
  lemma {:induction false} GetTrackedValue(st: Store, postId: string, scan: seq<string>, c: string, m0: string)
    requires m0 in scan && Yields(st, postId, m0, c)
    requires forall m :: m in scan && m != m0 ==> !Yields(st, postId, m, c)
    ensures Lookup(GetTrackedComments(st, postId, scan), c) == Some(st.trackedComments[m0])
    decreases |scan|
  {
    var n := |scan| - 1;
    var acc := GetTrackedComments(st, postId, scan[..n]);
    var m := scan[n];
    assert scan == scan[..n] + [m];
    if m == m0 {
      assert GetTrackedComments(st, postId, scan) == Put(acc, c, st.trackedComments[m0]);
      PutLookup(acc, c, st.trackedComments[m0], c);
    } else {
      assert m0 in scan[..n];
      GetTrackedValue(st, postId, scan[..n], c, m0);
      if Scanned(st, postId, m) && Parse(m).Some? {
        assert GetTrackedComments(st, postId, scan) == Put(acc, Parse(m).value.1, st.trackedComments[m]);
        assert m in scan && !Yields(st, postId, m, c);
        assert Parse(m).value.1 != c;
        PutLookup(acc, Parse(m).value.1, st.trackedComments[m], c);
      } else {
        assert GetTrackedComments(st, postId, scan) == acc;
      }
    }
  }

  /** Round trip: for a link id and a comment id without `:`, the comment
      tracked with score `s` is read back as `c -> [s]`, provided no other
      scanned member parses to the same comment id. */
  lemma TrackThenRead(st: Store, p: string, c: string, s: int, scan: seq<string>)
    requires IsLinkId(p) && IsCommentId(c) && ':' !in p && ':' !in c
    requires ScanListsAll(TrackComment(st, p, c, s), p, scan)
    requires forall m :: m in scan && m != MemberKey(p, c) ==> !Yields(st, p, m, c)
    ensures Lookup(GetTrackedComments(TrackComment(st, p, c, s), p, scan), c) == Some(s)
  {
    var st' := TrackComment(st, p, c, s);
    var key := MemberKey(p, c);
    SplitPair(p, ':', c);
    assert key == p + [':'] + c;
    assert HasPrefix(key, p + ":") by {
      assert key[..|p + ":"|] == p + ":";
    }
    assert Yields(st', p, key, c);
    forall m | m in scan && m != key
      ensures !Yields(st', p, m, c)
    {
      assert Yields(st', p, m, c) ==> Yields(st, p, m, c);
    }
    GetTrackedValue(st', p, scan, c, key);
  }

  /** `untrackComment(p, c)` removes exactly the member `"p:c"`, and
      `trackComment(p, c, s)` adds exactly that member, with score `s`. */
  lemma UntrackRemovesOnly(st: Store, p: string, c: string, s: int)
    ensures UntrackComment(st, p, c).trackedComments.Keys == st.trackedComments.Keys - {MemberKey(p, c)}
    ensures TrackComment(st, p, c, s).trackedComments.Keys == st.trackedComments.Keys + {MemberKey(p, c)}
    ensures TrackComment(st, p, c, s).trackedComments[MemberKey(p, c)] == s
  {
  }
}

=== FILE: tracked_post.dfy ===
/** Tracked posts and finished markers (src/data/trackedPost.ts): the
    `trackedPosts` sorted set of post id to creation time, and the
    `finishedPosts` hash of post id to winning comment id. */
module TrackedPost {
  import opened Base
  import opened Strings
  import opened Types
  import opened Settings
  import opened Records

  /** `isTrackablePost`: only when the app and new-post tracking are both on,
      and the title starts with the post prefix. */
  function IsTrackablePost(post: Post, s: AppSettings): (b: bool)
    ensures b <==> s.enabled && s.trackNewPosts && HasPrefix(post.title, s.postPrefix)
  {
    if !s.enabled || !s.trackNewPosts then false
    else if HasPrefix(post.title, s.postPrefix) then true
    else false
  }

  /** `trackPost`: `zAdd` of the post with its creation time as score. */
  function TrackPost(st: Store, postId: string, created: int): Store {
    st.(trackedPosts := st.trackedPosts[postId := created])
  }

  /** `untrackPost`: `zRem` of the post. */
  function UntrackPost(st: Store, postId: string): Store {
    st.(trackedPosts := st.trackedPosts - {postId})
  }

  /** The post is in the sorted set with a score in `[min, max]`. */
  predicate InWindow(st: Store, min: int, max: int, postId: string) {
    postId in st.trackedPosts && min <= st.trackedPosts[postId] <= max
  }

  /** `ranking` lists every member of the sorted set, as a `zRange` over the
      whole set does. */
  predicate RankingComplete(st: Store, ranking: seq<string>) {
    forall p :: p in st.trackedPosts ==> p in ranking
  }

  /** `getTrackedPosts`: `zRange` by score, folded into a record of post id to
      timestamp. `ranking` is the order in which the sorted set lists its
      members; the reply keeps the members whose score lies in `[min, max]`. */
  function GetTrackedPosts(st: Store, min: int, max: int, ranking: seq<string>): (r: seq<Entry>)
    ensures Distinct(Keys(r))
    ensures forall p :: p in Keys(r) <==> p in ranking && InWindow(st, min, max, p)
    ensures forall p :: p in Keys(r) ==> p in st.trackedPosts && Lookup(r, p) == Some(st.trackedPosts[p])
    ensures RankingComplete(st, ranking) ==> forall p :: p in Keys(r) <==> InWindow(st, min, max, p)
    decreases |ranking|
  {
    if |ranking| == 0 then []
    else
      var n := |ranking| - 1;
      var acc := GetTrackedPosts(st, min, max, ranking[..n]);
      var p := ranking[n];
      assert ranking == ranking[..n] + [p];
      if InWindow(st, min, max, p) then
        PutDistinct(acc, p, st.trackedPosts[p]);
        PutLookupAll(acc, p, st.trackedPosts[p]);
        Put(acc, p, st.trackedPosts[p])
      else acc
  }

  /** `isTrackedPost`: `zScore` read through JavaScript truthiness. */
  function IsTrackedPost(st: Store, postId: string): (b: bool)
    ensures b <==> postId in st.trackedPosts && st.trackedPosts[postId] != 0
  {
    var score := if postId in st.trackedPosts then Some(st.trackedPosts[postId]) else None;
    score.Some? && score.value != 0
  }

  /** After `trackPost(p, t)` the post's score is `t`, re-tracking overwrites,
      and a later range query lists it exactly when `t` lies in the range. */
  lemma TrackThenRange(st: Store, p: string, t: int, min: int, max: int, ranking: seq<string>)
    requires RankingComplete(TrackPost(st, p, t), ranking)
    ensures TrackPost(st, p, t).trackedPosts[p] == t
    ensures var r := GetTrackedPosts(TrackPost(st, p, t), min, max, ranking);
            (p in Keys(r) <==> min <= t <= max) && (p in Keys(r) ==> Lookup(r, p) == Some(t))
  {
  }

  /** A post tracked with score 0 reads as untracked; any other score reads as
      tracked. */
  lemma TrackedIffNonZero(st: Store, p: string, t: int)
    ensures IsTrackedPost(TrackPost(st, p, t), p) <==> t != 0
  {
  }

  /** `untrackPost(p)` removes `p` alone from the sorted set. */
  lemma UntrackRemovesOnly(st: Store, p: string, q: string)
    ensures !IsTrackedPost(UntrackPost(st, p), p)
    ensures q != p ==> IsTrackedPost(UntrackPost(st, p), q) == IsTrackedPost(st, q)
    ensures UntrackPost(st, p).trackedPosts.Keys == st.trackedPosts.Keys - {p}
  {
  }

  // ---------------------------------------------------------------------------
  // finished markers
  // ---------------------------------------------------------------------------

  /** `setFinishedPost`. */
  function SetFinishedPost(st: Store, postId: string, winnerId: string): Store {
    st.(finishedPosts := st.finishedPosts[postId := winnerId])
  }

  /** `getFinishedPosts`: the post ids that carry a marker. */
  function GetFinishedPosts(st: Store): set<string> {
    st.finishedPosts.Keys
  }

  /** `deleteFinishedPost`. */
  function DeleteFinishedPost(st: Store, postId: string): Store {
    st.(finishedPosts := st.finishedPosts - {postId})
  }

  /** `getFinishedPostWinner`: the stored winner, except that a non-empty value
      that is not a comment id reads as absent. */
  function GetFinishedPostWinner(st: Store, postId: string): (w: Option<string>)
    ensures w.Some? ==> w.value == "" || IsCommentId(w.value)
    ensures w.Some? ==> postId in st.finishedPosts && st.finishedPosts[postId] == w.value
    ensures w.None? <==> postId !in st.finishedPosts ||
                         (st.finishedPosts[postId] != "" && !IsCommentId(st.finishedPosts[postId]))
  {
    if postId !in st.finishedPosts then None
    else
      var v := st.finishedPosts[postId];
      if v != "" && !IsCommentId(v) then None else Some(v)
  }

  /** A marker that was set is listed, and its winner reads back unless it is a
      non-empty value that is not a comment id. */
  lemma FinishedRoundTrip(st: Store, p: string, w: string)
    ensures p in GetFinishedPosts(SetFinishedPost(st, p, w))
    ensures GetFinishedPostWinner(SetFinishedPost(st, p, w), p)
            == (if w != "" && !IsCommentId(w) then None else Some(w))
  {
  }

  /** `deleteFinishedPost(p)` removes key `p` alone. */
  lemma DeleteFinishedRemovesOnly(st: Store, p: string, q: string)
    ensures GetFinishedPosts(DeleteFinishedPost(st, p)) == GetFinishedPosts(st) - {p}
    ensures GetFinishedPostWinner(DeleteFinishedPost(st, p), p) == None
    ensures q != p ==> GetFinishedPostWinner(DeleteFinishedPost(st, p), q) == GetFinishedPostWinner(st, q)
  {
  }
}

=== FILE: types.dfy ===
/** The data the engine works on: the key-value store, the content records it
    reads from Reddit, the side effects it asks Reddit for, and the oracle that
    stands for every reply Reddit and the store's scans give. */
module Types {
  import opened Base
  import opened Strings

  // ---------------------------------------------------------------------------
  // identifiers
  // ---------------------------------------------------------------------------

  /** A full link (post) id, `t3_…`. */
  predicate IsLinkId(id: string) {
    HasPrefix(id, "t3_")
  }

  /** A full comment id, `t1_…`. */
  predicate IsCommentId(id: string) {
    HasPrefix(id, "t1_")
  }

  // ---------------------------------------------------------------------------
  // the store
  // ---------------------------------------------------------------------------

  /** The five store keys the engine uses. Sorted sets are maps from member to
      score; hashes are maps from field to value. */
  datatype Store = Store(
    trackedPosts: map<string, int>,      // sorted set: post id -> creation time (ms)
    trackedComments: map<string, int>,   // sorted set: "postId:commentId" -> score
    finishedPosts: map<string, string>,  // hash: post id -> winning comment id
    stickyPostMap: map<string, string>,  // hash: post id -> announcement comment id
    resultStickyMap: map<string, string> // hash: comment id -> announcement comment id
  )

  // ---------------------------------------------------------------------------
  // content records
  // ---------------------------------------------------------------------------

  /** A comment as the content provider returns it. `isRemoved`, `isSpam` and
      `removed` are the three independent removal signals the resolver reads. */
  datatype Comment = Comment(
    id: string,
    body: string,
    authorId: Option<string>,
    authorName: string,
    permalink: string,
    score: int,
    parentId: string,
    postId: string,
    isRemoved: bool,
    isSpam: bool,
    removed: bool
  )

  /** A post as the content provider returns it; `createdAt` in milliseconds. */
  datatype Post = Post(
    id: string,
    title: string,
    authorId: Option<string>,
    authorName: string,
    createdAt: int
  )

  // ---------------------------------------------------------------------------
  // side effects and the oracle
  // ---------------------------------------------------------------------------

  /** A write to Reddit that completed. */
  datatype Effect =
    | Submitted(postId: string, commentId: string, text: string)
    | Edited(commentId: string, text: string)
    | Approved(commentId: string)
    | Distinguished(commentId: string)
    | Locked(commentId: string)
    | Deleted(commentId: string)
    | Removed(commentId: string)

  /** Every reply the outside world gives during one handler run.
      - `comment`, `post`: `getCommentById`, `getPostById`;
      - `stickied`: the post's current stickied comment (its id);
      - `submit`: `submitComment` under a post with a text: the new comment's id,
        or `None` when the call throws;
      - `accepts`: whether the write that would have this effect succeeds
        (`false` means the call throws);
      - `scan`: the order in which a scan of `trackedComments` for a post id
        returns the members. */
  datatype Oracle = Oracle(
    comment: string -> Fetch<Comment>,
    post: string -> Fetch<Post>,
    stickied: string -> Fetch<string>,
    submit: (string, string) -> Option<string>,
    accepts: Effect -> bool,
    scan: string -> seq<string>
  )

  /** Fetching a comment by id yields a comment with that id. */
  ghost predicate CommentIdsAgree(o: Oracle) {
    forall id :: o.comment(id).Found? ==> o.comment(id).value.id == id
  }

  /** Fetching a post by id yields a post with that id. */
  ghost predicate PostIdsAgree(o: Oracle) {
    forall id :: o.post(id).Found? ==> o.post(id).value.id == id
  }

  /** A handler run: the store afterwards, the writes to Reddit that completed
      in order, and whether an error escaped the handler. Store writes made
      before the error stay. */
  datatype Outcome = Outcome(store: Store, effects: seq<Effect>, threw: bool)

  /** The result of a write that is attempted and whose failure is swallowed. */
  function BestEffort(o: Oracle, e: Effect): (r: seq<Effect>)
    ensures r == [] || r == [e]
    ensures o.accepts(e) <==> r == [e]
  {
    if o.accepts(e) then [e] else []
  }

  // ---------------------------------------------------------------------------
  // events
  // ---------------------------------------------------------------------------

  /** `EventSource` of a delete notification. */
  datatype EventSource = UnknownSource | User | Moderator | Admin | Unrecognized

  /** `!event.source`: the source is absent or the zero value. */
  predicate SourceMissing(s: Option<EventSource>) {
    s.None? || s.value == UnknownSource
  }
}
